=== FILE: README.md ===
# A verified model of a small Forth interpreter

This project models the core of a small Forth interpreter written in Rust
(`src/lib.rs`) as pure Dafny functions and proves properties about them.
The interpreter holds a vocabulary of words and a stack of 32-bit values.
Evaluating one input line does three things:

- it upper-cases the line, turns control characters into spaces and splits it on whitespace;
- it runs the tokens through a three-state definition parser (`Normal`, `CustomInit`, `Custom`);
- it executes the resulting flat list of items against the stack.

Each token resolves in one of three ways:

- a token that parses as an `i32` becomes a literal, before any lookup;
- otherwise it becomes a copy of the current body of its upper-cased name;
- otherwise it is `UnknownWord`.

User definitions `: name body ;` store the already-resolved items of the
body. A later redefinition therefore never changes words defined earlier.

Modules, one per file:

| file | module | contents |
|---|---|---|
| `wrappers.dfy` | `Wrappers` | `Option` and `Result` |
| `words.dfy` | `Words` | values, the item/exec/word/symbol enums, the error kinds, the initial vocabulary |
| `numerals.dfy` | `Numerals` | `i32` parsing from text, decimal rendering and their round trip |
| `text.dfy` | `Text` | upper-casing, control characters to spaces, whitespace splitting, trimming, joining |
| `evaluator.dfy` | `Evaluator` | `eval_oper`, `eval_command`, the arithmetic step and item execution |
| `parser.dfy` | `Parser` | `str_to_item` and the `input_parse` state machine |
| `parser_properties.dfy` | `ParserProperties` | what the state machine does over whole token runs |
| `interpreter.dfy` | `Interpreter` | the `Forth` value, `new`, `eval`, `format_stack` |
| `examples.dfy` | `Examples` | concrete input lines worked out end to end |

The Rust methods mutate `self`. Here they return a new value instead:

- `Interpreter.Eval` returns the interpreter after the line, together with the line's result;
- `Parser.Run` returns the vocabulary after the line, together with the item list or the error.

Changes made before an error are kept, exactly as the in-place mutation keeps them.

Two behaviours of the code are easy to miss:

- **Redefining a word whose body ends in a number.** The name check at `src/lib.rs:147-154` refuses any name whose current resolution ends in a literal. So in `: foo 1 ; foo : foo 2 ; foo` the second `: foo` fails with `InvalidWord`. See `ParserProperties.RedefineLiteralWordRefused`.
- **Dividing by zero.** The code pops both operands before it checks the divisor (`src/lib.rs:93-99`), so `4 0 /` fails with `DivisionByZero` and leaves the stack empty. See `Examples.DivideByZeroLine`.

## Model

| member | source | states |
|---|---|---|
| Numerals.ParseValue | src/lib.rs:195-196 | a token parses only if it is an optional `+`/`-` sign followed by one or more ASCII digits with nothing else (its first character is a digit or a sign, every later one is a digit, and its last is a digit), and the value lies in the 32-bit range |
| Numerals.LoneSignRejected | src/lib.rs:195-196 | a lone `+` or `-` is not a number, so those tokens always name the arithmetic words |
| Numerals.Render | src/lib.rs:79 | a rendering is non-empty, ends in a digit and starts with a digit or `-`; every character after the first is a digit |
| Numerals.DigitsRoundTrip | src/lib.rs:79 | the decimal digits of a natural number denote that number |
| Numerals.RenderRoundTrip | src/lib.rs:79 | parsing the rendering of any 32-bit value gives the value back |
| Text.Split | src/lib.rs:125 | no contract of its own: the maximal whitespace-free runs, in order; `Text.SplitToken`, `Text.SplitAtWhitespace` and `Text.SplitSubstrings` state its behaviour |
| Text.Tokenize | src/lib.rs:123-125 | no contract of its own: upper-case, turn control characters into spaces, then split; `Text.TokenizeTokens`, `Text.TokenizeCaseInsensitive`, `Text.ControlSeparates` and `Text.TokenizeJoin` state its behaviour |
| Text.Trim | src/lib.rs:82 | no contract of its own; its parts `Text.TrimStart` and `Text.TrimEnd` ensure that the result is a suffix, respectively prefix, of the input, that everything cut off is whitespace, and that the result does not start, respectively end, with whitespace; `Text.TrimSpaceAfter` states what it does to the formatted stack |
| Text.Upper | src/lib.rs:123 | upper-casing keeps the length, leaves no lower-case letter, turns each of `a`-`z` into the letter 32 code points below it and keeps every other character in place |
| Text.ToSpaceSeparated | src/lib.rs:257-266 | the line keeps its length, every control character becomes a space, every other character stays in place, and a control-free line is unchanged |
| Text.ControlSeparates | src/lib.rs:123-125 | a control character in the input line separates tokens: the line's tokens are those before it followed by those after it |
| Text.SplitAtWhitespace | src/lib.rs:125 | a whitespace character splits a line into the tokens before it followed by the tokens after it |
| Text.SplitJoin | src/lib.rs:125 | splitting whitespace-free tokens joined by single spaces gives back the tokens |
| Text.SplitSubstrings | src/lib.rs:125 | every piece of a split is non-empty, free of whitespace and made only of characters of the input |
| Text.TokenizeCaseInsensitive | src/lib.rs:123-125 | upper-casing a line first does not change its tokens |
| Text.TokenizeTokens | src/lib.rs:123-125 | every token of a line is non-empty and free of whitespace, lower-case letters and control characters |
| Text.TokenizeJoin | src/lib.rs:123-125 | tokenizing a space-joined list of clean tokens gives back the list |
| Text.TrimSpaceAfter | src/lib.rs:82 | trimming a string that neither starts nor ends with whitespace, followed by one space, removes exactly that space |
| Text.JoinEnds | src/lib.rs:76-84 | a join of non-empty tokens begins with the first token's first character and ends with the last token's last character |
| Evaluator.TruncDiv | src/lib.rs:215 | the quotient rounds toward zero: the remainder is smaller than the divisor in magnitude, and it is zero or has the sign of the dividend |
| Evaluator.EvalOper | src/lib.rs:207-219 | with `a` on top and `b` below, the result is `b+a`, `b-a`, `b*a` or `b/a`; a zero divisor gives `DivisionByZero` and nothing else does; the result is `Ok` exactly when the divisor is non-zero and the value fits in 32 bits; with a non-zero divisor, a value outside the 32-bit range gives `Overflow` |
| Evaluator.ExecArith | src/lib.rs:92-100 | both pops come before the check: an empty stack stays empty, a single value is lost with `StackUnderflow`, a zero divisor leaves the stack without both operands, an out-of-range result leaves it without both operands with `Overflow`, and success replaces the top two with the result |
| Evaluator.EvalCommand | src/lib.rs:221-255 | `DUP` copies the top, `DROP` removes it, `OVER` copies the second from top, `SWAP` exchanges the top two; `DUP`/`DROP`/`OVER` leave a too-short stack unchanged, while `SWAP` empties it, all with `StackUnderflow` |
| Evaluator.TruncDivNonNegative | src/lib.rs:215 | for a non-negative dividend and a positive divisor the quotient is ordinary floor division |
| Evaluator.TruncDivNegate | src/lib.rs:215 | negating the dividend negates the quotient, so `-7 / 2` is `-3` and not `-4` |
| Evaluator.SwapTwice | src/lib.rs:236-243 | `SWAP` twice restores a stack of two or more values |
| Evaluator.DropUndoesPush | src/lib.rs:223-252 | `DROP` after a successful `DUP` or `OVER` restores the stack |
| Evaluator.ExecOne | src/lib.rs:90-110 | one item grows the stack by at most one value and fails only with an execution error (`StackUnderflow`, `DivisionByZero`, `Overflow`); a literal pushes its value and a delimiter changes nothing |
| Evaluator.Execute | src/lib.rs:89-111 | an empty list changes nothing; the stack grows by at most one value per item; a failure is always an execution error, never `UnknownWord` or `InvalidWord` |
| Evaluator.ExecuteBinary | src/lib.rs:92-100 | the items of `b a op` push `b`, then `a`, and replace both with `b op a`; with `/` and `a` zero, both are gone and the error is `DivisionByZero` |
| Evaluator.ExecuteAppend | src/lib.rs:89-111 | running two item lists back to back equals running their concatenation, and the second list does not run once the first has failed |
| Evaluator.ExecuteLiterals | src/lib.rs:105-107 | a run of literals pushes its values in order and never fails |
| Evaluator.ExecuteSkipsSymbol | src/lib.rs:109 | a delimiter item reaching execution changes nothing |
| Evaluator.ExecuteStopsAtError | src/lib.rs:95-99 | items after the first failing item have no effect |
| Evaluator.ExecuteKeepsI32 | src/lib.rs:89-111 | execution keeps every stack value within 32 bits, on success and on failure |
| Parser.Resolve | src/lib.rs:194-204 | a numeric token is a single literal regardless of the vocabulary; otherwise the result is the stored body of the upper-cased name if present; otherwise `UnknownWord` |
| Parser.StepNormal | src/lib.rs:129-144 | outside a definition: an unresolvable token gives `UnknownWord`, an empty resolution gives `InvalidWord`, a resolution ending in `:` opens a definition and emits nothing; any other non-empty resolution succeeds, stays in the normal state and is emitted whole; the vocabulary is unchanged |
| Parser.StepCustomInit | src/lib.rs:145-163 | the name after `:` is refused with `InvalidWord` exactly when it currently resolves to an empty body or to one ending in a literal (so every number is refused); an unresolvable name is accepted; an accepted name is bound to an empty body and no other entry changes |
| Parser.StepCustom | src/lib.rs:164-184 | inside a definition: the step succeeds exactly when the token has a non-empty resolution; one ending in `;` closes the definition, any other is appended to the body and the definition stays open; nothing is emitted; unresolvable or empty resolutions fail as in the normal state |
| Parser.Step | src/lib.rs:126-185 | on success, a step in the normal state leaves the vocabulary alone and a step inside a definition emits nothing; a failing step raises a parse error, never an execution error |
| Parser.Run | src/lib.rs:118-191 | at the end of the tokens the vocabulary is the current one and an open definition fails with `InvalidWord`; a failure is always a parse error; whole lines are stated by the `ParserProperties` lemmas |
| Parser.InputParse | src/lib.rs:118-191 | a line fails only with `UnknownWord` or `InvalidWord`; whole lines are stated by the `ParserProperties` lemmas and `Interpreter.Eval` |
| Words.InitialWordMap | src/lib.rs:32-47 | a constant with no contract of its own; `ParserProperties.BuiltinsRedefinable` states what the parser relies on |
| ParserProperties.BuiltinsRedefinable | src/lib.rs:32-47 | the initial vocabulary holds `:` and `;` as the definition markers, binds every built-in name to a single item, and lets every built-in be redefined, since no built-in body is empty or ends in a literal |
| ParserProperties.Define | src/lib.rs:127-191 | a complete definition `: name body ;` binds `name` to the concatenation of its body tokens' current resolutions, then parsing continues in the normal state |
| ParserProperties.FreshBody | src/lib.rs:159-177 | the body of a freshly opened definition ends up holding exactly the copied resolutions of its tokens, in order |
| ParserProperties.BodyFailure | src/lib.rs:164-184 | an unresolvable token inside a body ends the line with `UnknownWord`; the body tokens before it stay in the vocabulary, with no rollback |
| ParserProperties.Unterminated | src/lib.rs:188-191 | a definition left open at the end of the line fails with `InvalidWord`, and the partial definition stays in the vocabulary |
| ParserProperties.RedefineLiteralWordRefused | src/lib.rs:145-154 | once a word's body ends in a number, `: name` fails with `InvalidWord`, and the earlier definition is kept |
| ParserProperties.SelfReference | src/lib.rs:164-179 | inside its own definition a name refers to its partial body: an empty one fails with `InvalidWord`, and otherwise the partial body is doubled |
| ParserProperties.NumericTokens | src/lib.rs:129-140 | a run of numeric tokens emits their literals in order and leaves the vocabulary alone |
| ParserProperties.WordStep | src/lib.rs:130-139 | a word outside a definition emits a copy of its body as it is at that moment |
| ParserProperties.PlainRun | src/lib.rs:127-144 | outside definitions, a line emits the concatenated resolutions of its tokens |
| ParserProperties.RunExtendsItems | src/lib.rs:137-139 | items already emitted are never changed; a successful parse only appends to them |
| ParserProperties.RunKeepsI32 | src/lib.rs:118-192 | parsing keeps every literal within 32 bits, in the vocabulary (also on failure) and in the emitted items |
| Interpreter.Eval | src/lib.rs:86-116 | the whole line is parsed before anything runs: a parse error leaves the stack untouched, keeps the vocabulary changes and returns the error; otherwise the stack and result are those of executing the parsed items |
| Interpreter.New | src/lib.rs:69-74 | no contract of its own: the built-in vocabulary and an empty stack; `Interpreter.NewIsEmpty` states that it is valid and formats as `""` |
| Interpreter.FormatStack | src/lib.rs:76-84 | no contract of its own; `Interpreter.FormatStackIsJoin`, `Interpreter.FormatTokens` and `Interpreter.FormatThenEval` state its behaviour |
| Interpreter.FormatStackIsJoin | src/lib.rs:76-84 | the formatted stack is the values' renderings, bottom to top, joined by single spaces, with no leading or trailing space; an empty stack gives `""` |
| Interpreter.FormatTokens | src/lib.rs:76-84 | splitting the formatted stack into tokens gives the renderings of its values, bottom to top |
| Interpreter.FormatThenParse | src/lib.rs:76-84 | the formatted stack parses back to one literal per stack value |
| Interpreter.FormatThenEval | src/lib.rs:76-116 | evaluating the formatted text of a stack pushes that same stack again and succeeds |
| Interpreter.EvalNumbers | src/lib.rs:105-107 | a line of numbers pushes its values in order and never fails |
| Interpreter.EvalDefinition | src/lib.rs:145-184 | a line holding one complete definition binds the name to the copied body, leaves the stack alone and succeeds |
| Interpreter.EvalUnterminated | src/lib.rs:188-191 | a line that leaves a definition open fails with `InvalidWord`, keeps the stack and keeps the partial definition |
| Interpreter.StraySemiColon | src/lib.rs:134-139 | a `;` outside a definition is emitted, skipped at execution, and the line succeeds without changing anything |
| Interpreter.EvalCaseInsensitive | src/lib.rs:123 | upper-casing a line does not change what evaluating it does |
| Interpreter.EvalKeepsValid | src/lib.rs:86-116 | every value on the stack and in the definitions stays within 32 bits, whether the line succeeds or fails |
| Interpreter.NewIsEmpty | src/lib.rs:69-74 | a new interpreter is valid and its stack formats as `""` |
| Examples.DivideByZeroLine | src/lib.rs:212-214 | `4 0 /` on a new interpreter fails with `DivisionByZero` and leaves an empty stack |
| Examples.TruncatingDivisionLine | src/lib.rs:215 | `-7 2 /` leaves `-3` |
| Examples.SubtractionLine | src/lib.rs:210 | `9 2 -` leaves `7`: `-` is the subtraction word, and the value below the top is the minuend |
| Examples.LoneValueLostLine | src/lib.rs:93-95 | `1 +` fails with `StackUnderflow` and the lone `1` is gone |
| Examples.RedefinitionSnapshot | src/lib.rs:198-199 | after `: FOO DUP ;`, `: BAR FOO ;` and `: FOO DROP ;`, `1 BAR` still duplicates and leaves `1 1` |

## Left out

- The global `WORD_MAP` behind `lazy_static` (`src/lib.rs:32-47`) is the constant `Words.InitialWordMap`; there is no global state.
- Text.Upper models `to_uppercase` (`src/lib.rs:123, 198`) on the ASCII letters `a`-`z` only. Other Unicode case mappings, including characters whose upper case is several characters long, are not modelled.
- Text.IsControl models `char::is_control` as the Unicode general category Cc (U+0000-U+001F, U+007F-U+009F), written out as ranges rather than derived from Unicode tables.
- Text.IsWhitespace models the White_Space set used by `split_whitespace` and `trim` as a written-out list of code points, not derived from Unicode tables.
- Evaluator.EvalOper reports 32-bit overflow as the extra error `Overflow`, which stops the line like the other errors. For `i32::MIN / -1` Rust panics in every build, and `Overflow` stands for that panic. For `+`, `-` and `*` Rust panics only in a debug build and wraps in a release build. The release-build wrap-around is not modelled.
- `HashMap` and `VecDeque` are a Dafny `map` and `seq`. The stack is stored bottom first, so `back`/`pop_back`/`push_back` act on the last element.
- The `None => ()` branch at `src/lib.rs:178` is modelled, in `Parser.StepCustom`'s `name in p.vocab` test. It cannot be taken, because the name was inserted when the definition opened.
- `Parser.Run` and `Parser.InputParse` carry only the end-of-input facts in their own contracts. Their behaviour on whole lines is stated by the lemmas in `ParserProperties` for the line shapes those lemmas name: numbers and plain words, complete and unterminated definitions, and a body cut short by an unresolvable token.
- The definition lemmas (`ParserProperties.Define`, `Unterminated`, `FreshBody`) assume body tokens that resolve, do not end in `;`, and do not mention the word being defined. Self-reference inside a body is stated separately in `ParserProperties.SelfReference`. A body cut short by an unresolvable token is stated in `ParserProperties.BodyFailure`. A token with an empty resolution inside a body is covered only by the single-step contract of `Parser.StepCustom`.

=== FILE: evaluator.dfy ===
/** Executing resolved items against the value stack. */
module Evaluator {
  import opened Wrappers
  import opened Words

  /** The stack after a step together with whether the step succeeded.  The
      stack is reported even on failure: the program pops before it checks. */
  datatype Effect = Effect(stack: seq<Value>, status: Result<(), Error>)

  function Abs(x: int): nat {
    if x < 0 then -x else x
  }

  /** Integer division rounding toward zero, as the program's `/` on 32-bit
      integers does (Dafny's own `/` is Euclidean). */
  function TruncDiv(b: int, a: int): (q: int)
    requires a != 0
    ensures Abs(b - q * a) < Abs(a)
    ensures b - q * a == 0 || (b - q * a < 0 <==> b < 0)
  {
    var m := Abs(b) / Abs(a);
    var q := if (b < 0) == (a < 0) then m else -m;
    TruncDivRemainder(b, a, m, q);
    q
  }

  lemma TruncDivRemainder(b: int, a: int, m: int, q: int)
    requires a != 0 && m == Abs(b) / Abs(a)
    requires q == if (b < 0) == (a < 0) then m else -m
    ensures b - q * a == if b < 0 then -(Abs(b) % Abs(a)) else Abs(b) % Abs(a)
  {
    var n: int, d: int := Abs(b), Abs(a);
    assert n == m * d + n % d;
    var md := m * d;
    if a < 0 {
      assert a == -d;
      if b < 0 { assert q * a == m * (-d) == -md; } else { assert q * a == (-m) * (-d) == md; }
    } else {
      assert a == d;
      if b < 0 { assert q * a == (-m) * d == -md; } else { assert q * a == md; }
    }
  }

  /** The exact result of an arithmetic word, before any range check. */
  function Apply(op: ArithWord, b: int, a: int): int
    requires op == Div ==> a != 0
  {
    match op
    case Add => b + a
    case Sub => b - a
    case Mul => b * a
    case Div => TruncDiv(b, a)
  }

  /** An arithmetic word on top value `a` and the value `b` below it.
      A zero divisor is reported before anything else; a result outside the
      32-bit range is the `Overflow` error. */
  function EvalOper(a: Value, b: Value, op: ArithWord): (r: Result<Value, Error>)
    ensures r == Err(DivisionByZero) <==> op == Div && a == 0
    ensures r.Ok? <==> (op != Div || a != 0) && IsI32(Apply(op, b, a))
    ensures r.Ok? ==> r.value == Apply(op, b, a)
    ensures (op != Div || a != 0) && !IsI32(Apply(op, b, a)) ==> r == Err(Overflow)
  {
    match op
    case Add => Checked(b + a)
    case Sub => Checked(b - a)
    case Mul => Checked(b * a)
    case Div => if a == 0 then Err(DivisionByZero) else Checked(TruncDiv(b, a))
  }

  function Checked(v: int): (r: Result<Value, Error>) {
    if IsI32(v) then Ok(v) else Err(Overflow)
  }

  /** Removing the last value, if there is one. */
  function PopBack(s: seq<Value>): (Option<Value>, seq<Value>) {
    if |s| == 0 then (None, s) else (Some(s[|s| - 1]), s[..|s| - 1])
  }

  /** An arithmetic word: two pops, then the operation.  Both pops happen
      before the check, so a single value is consumed even when the step
      underflows, and both operands are gone when the division fails. */
  function ExecArith(s: seq<Value>, op: ArithWord): (r: Effect)
    ensures |s| == 0 ==> r == Effect([], Err(StackUnderflow))
    ensures |s| == 1 ==> r == Effect([], Err(StackUnderflow))
    ensures |s| >= 2 ==> |r.stack| >= |s| - 2 && r.stack[..|s| - 2] == s[..|s| - 2]
    ensures |s| >= 2 && op == Div && s[|s| - 1] == 0 ==>
              r == Effect(s[..|s| - 2], Err(DivisionByZero))
    ensures |s| >= 2 && r.status.Ok? ==>
              (op != Div || s[|s| - 1] != 0) &&
              r.stack == s[..|s| - 2] + [Apply(op, s[|s| - 2], s[|s| - 1])]
    ensures |s| >= 2 && r.status.Err? ==> r.stack == s[..|s| - 2]
    ensures |s| >= 2 && (op != Div || s[|s| - 1] != 0) ==>
              (r.status.Ok? <==> IsI32(Apply(op, s[|s| - 2], s[|s| - 1])))
    ensures |s| >= 2 && (op != Div || s[|s| - 1] != 0) && !IsI32(Apply(op, s[|s| - 2], s[|s| - 1])) ==>
              r == Effect(s[..|s| - 2], Err(Overflow))
  {
    var (oa, s1) := PopBack(s);
    var (ob, s2) := PopBack(s1);
    match (oa, ob)
    case (Some(a), Some(b)) =>
      (match EvalOper(a, b, op)
       case Ok(v) => Effect(s2 + [v], Ok(()))
       case Err(e) => Effect(s2, Err(e)))
    case _ => Effect(s2, Err(StackUnderflow))
  }

  /** A stack word.  DUP, DROP and OVER leave the stack alone when they
      underflow; SWAP pops both values first and so loses a single one. */
  function EvalCommand(s: seq<Value>, w: StackWord): (r: Effect)
    ensures w == Dup ==> if |s| >= 1 then r == Effect(s + [s[|s| - 1]], Ok(()))
                         else r == Effect(s, Err(StackUnderflow))
    ensures w == Drop ==> if |s| >= 1 then r == Effect(s[..|s| - 1], Ok(()))
                          else r == Effect(s, Err(StackUnderflow))
    ensures w == Over ==> if |s| >= 2 then r == Effect(s + [s[|s| - 2]], Ok(()))
                          else r == Effect(s, Err(StackUnderflow))
    ensures w == Swap ==> if |s| >= 2 then r == Effect(s[..|s| - 2] + [s[|s| - 1], s[|s| - 2]], Ok(()))
                          else r == Effect([], Err(StackUnderflow))
  {
    match w
    case Dup =>
      if |s| == 0 then Effect(s, Err(StackUnderflow)) else Effect(s + [s[|s| - 1]], Ok(()))
    case Drop =>
      (match PopBack(s)
       case (Some(_), rest) => Effect(rest, Ok(()))
       case (None, _) => Effect(s, Err(StackUnderflow)))
    case Swap =>
      var (oa, s1) := PopBack(s);
      var (ob, s2) := PopBack(s1);
      (match (oa, ob)
       case (Some(a), Some(b)) => Effect(s2 + [a] + [b], Ok(()))
       case _ => Effect(s2, Err(StackUnderflow)))
    case Over =>
      var len := |s|;
      if len < 2 then Effect(s, Err(StackUnderflow)) else Effect(s + [s[len - 2]], Ok(()))
  }

  /** One item: literals push, words act, delimiters are skipped.  An item
      grows the stack by at most one value and fails only with an
      execution error. */
  function ExecOne(s: seq<Value>, item: Item): (r: Effect)
    ensures |r.stack| <= |s| + 1
    ensures r.status.Err? ==> IsExecError(r.status.error)
    ensures item.SymbolItem? ==> r == Effect(s, Ok(()))
    ensures item.ExecItem? && item.exec.Literal? ==> r == Effect(s + [item.exec.value], Ok(()))
  {
    match item
    case ExecItem(Arith(op)) => ExecArith(s, op)
    case ExecItem(Stack(w)) => EvalCommand(s, w)
    case ExecItem(Literal(v)) => Effect(s + [v], Ok(()))
    case SymbolItem(_) => Effect(s, Ok(()))
  }

  /** Running a flat item list in order, stopping at the first failing item
      and keeping whatever that item and its predecessors did to the stack. */
  function Execute(s: seq<Value>, items: seq<Item>): (r: Effect)
    ensures |items| == 0 ==> r == Effect(s, Ok(()))
    ensures |r.stack| <= |s| + |items|
    ensures r.status.Err? ==> IsExecError(r.status.error)
    decreases |items|
  {
    if |items| == 0 then Effect(s, Ok(()))
    else
      var e := ExecOne(s, items[0]);
      if e.status.Err? then e else Execute(e.stack, items[1..])
  }

  /** Running two lists back to back is running their concatenation: the
      second list starts from the first one's stack, and does not run at all
      if the first one failed. */
  lemma {:induction false} ExecuteAppend(s: seq<Value>, xs: seq<Item>, ys: seq<Item>)
    ensures Execute(s, xs + ys) ==
              (var e := Execute(s, xs); if e.status.Err? then e else Execute(e.stack, ys))
    decreases |xs|
  {
    if |xs| == 0 {
      assert xs + ys == ys;
    } else {
      assert (xs + ys)[0] == xs[0];
      assert (xs + ys)[1..] == xs[1..] + ys;
      var e := ExecOne(s, xs[0]);
      if e.status.Ok? {
        ExecuteAppend(e.stack, xs[1..], ys);
      }
    }
  }

  /** A successful first item, then the rest. */
  lemma ExecuteCons(s: seq<Value>, items: seq<Item>)
    requires |items| > 0 && ExecOne(s, items[0]).status.Ok?
    ensures Execute(s, items) == Execute(ExecOne(s, items[0]).stack, items[1..])
  {
  }

  /** A run of literals pushes its values in order and cannot fail. */
  lemma {:induction false} ExecuteLiterals(s: seq<Value>, vs: seq<Value>)
    ensures Execute(s, Lits(vs)) == Effect(s + vs, Ok(()))
    decreases |vs|
  {
    if |vs| > 0 {
      var items := Lits(vs);
      assert items[0] == Lit(vs[0]) && items[1..] == Lits(vs[1..]);
      assert ExecOne(s, items[0]) == Effect(s + [vs[0]], Ok(()));
      ExecuteCons(s, items);
      ExecuteLiterals(s + [vs[0]], vs[1..]);
      assert s + [vs[0]] + vs[1..] == s + vs;
    }
  }

  /** Delimiter items that reach execution are no-ops. */
  lemma ExecuteSkipsSymbol(s: seq<Value>, sym: Symbol, rest: seq<Item>)
    ensures Execute(s, [SymbolItem(sym)] + rest) == Execute(s, rest)
  {
    assert ([SymbolItem(sym)] + rest)[1..] == rest;
  }

  /** The first failing item ends the run: items after it have no effect. */
  lemma ExecuteStopsAtError(s: seq<Value>, xs: seq<Item>, ys: seq<Item>)
    requires Execute(s, xs).status.Err?
    ensures Execute(s, xs + ys) == Execute(s, xs)
  {
    ExecuteAppend(s, xs, ys);
  }

  lemma ExecOneKeepsI32(s: seq<Value>, item: Item)
    requires StackI32(s)
    requires ItemsI32([item])
    ensures StackI32(ExecOne(s, item).stack)
  {
    match item
    case ExecItem(Literal(v)) =>
      assert [item][0] == item;
    case ExecItem(Arith(op)) =>
    case ExecItem(Stack(w)) =>
    case SymbolItem(_) =>
  }

  /** Execution keeps every stack value within 32 bits, whether it succeeds or not. */
  lemma {:induction false} ExecuteKeepsI32(s: seq<Value>, items: seq<Item>)
    requires StackI32(s)
    requires ItemsI32(items)
    ensures StackI32(Execute(s, items).stack)
    decreases |items|
  {
    if |items| > 0 {
      assert ItemsI32([items[0]]) by {
        assert [items[0]][0] == items[0];
      }
      ExecOneKeepsI32(s, items[0]);
      var e := ExecOne(s, items[0]);
      if e.status.Ok? {
        assert ItemsI32(items[1..]) by {
          forall i | 0 <= i < |items[1..]| ensures items[1..][i] == items[i + 1] { }
        }
        ExecuteKeepsI32(e.stack, items[1..]);
      }
    }
  }

  /** For a non-negative dividend and a positive divisor, rounding toward
      zero and Euclidean division agree. */
  lemma TruncDivNonNegative(b: int, a: int)
    requires b >= 0 && a > 0
    ensures TruncDiv(b, a) == b / a
  {
  }

  /** Negating the dividend negates the truncated quotient, which is where
      it differs from Euclidean division. */
  lemma TruncDivNegate(b: int, a: int)
    requires a != 0
    ensures TruncDiv(-b, a) == -TruncDiv(b, a)
  {
  }

  /** SWAP undoes itself. */
  lemma SwapTwice(s: seq<Value>)
    requires |s| >= 2
    ensures EvalCommand(EvalCommand(s, Swap).stack, Swap) == Effect(s, Ok(()))
  {
    var t := EvalCommand(s, Swap).stack;
    assert t[..|t| - 2] == s[..|s| - 2];
    assert s[..|s| - 2] + [s[|s| - 2], s[|s| - 1]] == s;
  }

  /** DROP undoes DUP and OVER. */
  lemma DropUndoesPush(s: seq<Value>, w: StackWord)
    requires w == Dup || w == Over
    requires |s| >= (if w == Dup then 1 else 2)
    ensures EvalCommand(EvalCommand(s, w).stack, Drop) == Effect(s, Ok(()))
  {
    var t := EvalCommand(s, w).stack;
    assert t[..|t| - 1] == s;
  }

  /** Operand order as a line is written: `b a op` pushes `b`, then `a`, and
      the operation takes `a` as its right operand. */
  lemma ExecuteBinary(s: seq<Value>, b: Value, a: Value, op: ArithWord)
    ensures op == Div && a == 0 ==>
              Execute(s, [Lit(b), Lit(a), ExecItem(Arith(op))]) == Effect(s, Err(DivisionByZero))
    ensures (op != Div || a != 0) && IsI32(Apply(op, b, a)) ==>
              Execute(s, [Lit(b), Lit(a), ExecItem(Arith(op))]) == Effect(s + [Apply(op, b, a)], Ok(()))
  {
    var items := [Lit(b), Lit(a), ExecItem(Arith(op))];
    ExecuteCons(s, items);
    ExecuteCons(s + [b], items[1..]);
    var t := s + [b] + [a];
    assert t[..|t| - 2] == s && t[|t| - 2] == b && t[|t| - 1] == a;
    assert items[1..][1..] == [ExecItem(Arith(op))];
  }
}

=== FILE: examples.dfy ===
/** Whole-line scenarios on a fresh interpreter. */
module Examples {
  import opened Wrappers
  import opened Words
  import opened Numerals
  import opened Text
  import opened Evaluator
  import opened Parser
  import opened ParserProperties
  import opened Interpreter

  /** An upper-case word name is not a number and is its own upper case. */
  lemma WordName(s: string)
    requires |s| > 0 && forall i :: 0 <= i < |s| ==> 'A' <= s[i] <= 'Z'
    ensures ParseValue(s) == None && Upper(s) == s
  {
    ParseRejectsNonDigit(s, 0);
    UpperOfNoLower(s);
  }

  lemma SymbolName(s: string)
    requires s == "/" || s == "+" || s == "-"
    ensures ParseValue(s) == None && Upper(s) == s
  {
    if s == "/" {
      ParseRejectsNonDigit(s, 0);
    } else {
      LoneSignRejected();
    }
    assert Upper(s)[0] == s[0];
  }

  /** The tokens of a line written as single-space-separated clean tokens. */
  lemma LineTokens(line: string, toks: seq<string>)
    requires forall k :: 0 <= k < |toks| ==> CleanToken(toks[k])
    requires Join(toks) == line
    ensures Tokenize(line) == toks
  {
    TokenizeJoin(toks);
  }

  /** The built-in words the scenarios below use. */
  predicate HasArith(v: Vocab) {
    && "/" in v && v["/"] == [ExecItem(Arith(Div))]
    && "+" in v && v["+"] == [ExecItem(Arith(Add))]
    && "-" in v && v["-"] == [ExecItem(Arith(Sub))]
  }

  lemma InitialHasArith()
    ensures HasArith(InitialWordMap)
  {
  }

  lemma SingleDigit(c: char)
    requires IsDigit(c)
    ensures ParseValue([c]) == Some(DigitValue(c))
  {
    var s := [c];
    assert s[0] != '+' && s[0] != '-';
    assert AllDigits(s);
    assert s[..0] == [];
    assert DigitsValue(s) == DigitValue(c);
  }

  lemma NumberToken(v: Vocab, t: string, x: Value)
    requires ParseValue(t) == Some(x)
    ensures Resolved(v, t) == [Lit(x)] && PlainToken(v, t)
  {
  }

  lemma WordToken(v: Vocab, t: string)
    requires ParseValue(t) == None && Upper(t) == t && t in v
    requires |v[t]| > 0 && Last(v[t]) != Some(SymbolItem(Colon))
    ensures Resolved(v, t) == v[t] && PlainToken(v, t)
  {
  }

  lemma Expand3(v: Vocab, toks: seq<string>)
    requires |toks| == 3
    ensures Expand(v, toks) == Resolved(v, toks[0]) + Resolved(v, toks[1]) + Resolved(v, toks[2])
  {
    var t2 := toks[2..];
    assert Expand(v, t2) == Resolved(v, toks[2]) by {
      assert t2[0] == toks[2] && t2[1..] == [];
      assert Resolved(v, toks[2]) + [] == Resolved(v, toks[2]);
    }
    assert Expand(v, toks[1..]) == Resolved(v, toks[1]) + Expand(v, t2) by {
      assert toks[1..][0] == toks[1] && toks[1..][1..] == t2;
    }
  }

  lemma DivideByZeroTokens()
    ensures Tokenize("4 0 /") == ["4", "0", "/"]
  {
    LineTokens("4 0 /", ["4", "0", "/"]);
  }

  lemma DivideByZeroParse(v: Vocab, toks: seq<string>)
    requires HasArith(v) && toks == ["4", "0", "/"]
    ensures Run(Parser(Normal, v, []), toks) == ParseOutcome(v, Ok([Lit(4), Lit(0), ExecItem(Arith(Div))]))
  {
    SymbolName("/");
    SingleDigit('4');
    SingleDigit('0');
    NumberToken(v, "4", 4);
    NumberToken(v, "0", 0);
    WordToken(v, "/");
    PlainRun(v, [], toks);
    Expand3(v, toks);
    assert Expand(v, toks) == [Lit(4)] + [Lit(0)] + [ExecItem(Arith(Div))];
    assert [Lit(4)] + [Lit(0)] + [ExecItem(Arith(Div))] == [Lit(4), Lit(0), ExecItem(Arith(Div))];
    assert [] + Expand(v, toks) == Expand(v, toks);
  }

  /** `4 0 /` fails with a division by zero, and both operands are gone. */
  lemma DivideByZeroLine()
    ensures Eval(New(), "4 0 /") == EvalOutcome(Forth(InitialWordMap, []), Err(DivisionByZero))
  {
    var items := [Lit(4), Lit(0), ExecItem(Arith(Div))];
    InitialHasArith();
    DivideByZeroTokens();
    DivideByZeroParse(InitialWordMap, ["4", "0", "/"]);
    ExecuteCons([], items);
    ExecuteCons([4], items[1..]);
  }

  lemma MinusSeven()
    ensures ParseValue("-7") == Some(-7)
  {
    assert "-7"[1..] == "7";
    assert DigitsValue("7") == 7 by { assert "7"[..0] == ""; }
  }

  lemma TruncatingDivisionTokens()
    ensures Tokenize("-7 2 /") == ["-7", "2", "/"]
  {
    LineTokens("-7 2 /", ["-7", "2", "/"]);
  }

  lemma TruncatingDivisionParse(v: Vocab, toks: seq<string>)
    requires HasArith(v) && toks == ["-7", "2", "/"]
    ensures Run(Parser(Normal, v, []), toks) == ParseOutcome(v, Ok([Lit(-7), Lit(2), ExecItem(Arith(Div))]))
  {
    SymbolName("/");
    MinusSeven();
    SingleDigit('2');
    NumberToken(v, "-7", -7);
    NumberToken(v, "2", 2);
    WordToken(v, "/");
    PlainRun(v, [], toks);
    Expand3(v, toks);
    assert Expand(v, toks) == [Lit(-7)] + [Lit(2)] + [ExecItem(Arith(Div))];
    assert [Lit(-7)] + [Lit(2)] + [ExecItem(Arith(Div))] == [Lit(-7), Lit(2), ExecItem(Arith(Div))];
    assert [] + Expand(v, toks) == Expand(v, toks);
  }

  /** `-7 2 /` leaves -3: division truncates toward zero. */
  lemma TruncatingDivisionRun(s: seq<Value>)
    ensures Execute(s, [Lit(-7), Lit(2), ExecItem(Arith(Div))]) == Effect(s + [-3], Ok(()))
  {
    var items := [Lit(-7), Lit(2), ExecItem(Arith(Div))];
    ExecuteCons(s, items);
    ExecuteCons(s + [-7], items[1..]);
    assert TruncDiv(-7, 2) == -3;
    ExecuteCons(s + [-7] + [2], items[2..]);
    assert (s + [-7] + [2])[..|s| + 2 - 2] == s;
  }

  lemma TruncatingDivision(f: Forth)
    requires HasArith(f.wordMap)
    ensures Eval(f, "-7 2 /") == EvalOutcome(Forth(f.wordMap, f.stack + [-3]), Ok(()))
  {
    TruncatingDivisionTokens();
    TruncatingDivisionParse(f.wordMap, ["-7", "2", "/"]);
    TruncatingDivisionRun(f.stack);
  }

  lemma TruncatingDivisionLine()
    ensures Eval(New(), "-7 2 /") == EvalOutcome(Forth(InitialWordMap, [-3]), Ok(()))
  {
    InitialHasArith();
    TruncatingDivision(New());
  }

  lemma SubtractionTokens()
    ensures Tokenize("9 2 -") == ["9", "2", "-"]
  {
    LineTokens("9 2 -", ["9", "2", "-"]);
  }

  lemma SubtractionParse(v: Vocab, toks: seq<string>)
    requires HasArith(v) && toks == ["9", "2", "-"]
    ensures Run(Parser(Normal, v, []), toks) == ParseOutcome(v, Ok([Lit(9), Lit(2), ExecItem(Arith(Sub))]))
  {
    SymbolName("-");
    SingleDigit('9');
    SingleDigit('2');
    NumberToken(v, "9", 9);
    NumberToken(v, "2", 2);
    WordToken(v, "-");
    PlainRun(v, [], toks);
    Expand3(v, toks);
    assert Expand(v, toks) == [Lit(9)] + [Lit(2)] + [ExecItem(Arith(Sub))];
    assert [Lit(9)] + [Lit(2)] + [ExecItem(Arith(Sub))] == [Lit(9), Lit(2), ExecItem(Arith(Sub))];
    assert [] + Expand(v, toks) == Expand(v, toks);
  }

  /** `9 2 -` leaves 7: the lone `-` is the subtraction word, not a number,
      and the value below the top is the minuend. */
  lemma SubtractionLine()
    ensures Eval(New(), "9 2 -") == EvalOutcome(Forth(InitialWordMap, [7]), Ok(()))
  {
    InitialHasArith();
    SubtractionTokens();
    SubtractionParse(InitialWordMap, ["9", "2", "-"]);
    ExecuteBinary([], 9, 2, Sub);
  }

  lemma LoneValueTokens()
    ensures Tokenize("1 +") == ["1", "+"]
  {
    LineTokens("1 +", ["1", "+"]);
  }

  lemma LoneValueParse(v: Vocab, toks: seq<string>)
    requires HasArith(v) && toks == ["1", "+"]
    ensures Run(Parser(Normal, v, []), toks) == ParseOutcome(v, Ok([Lit(1), ExecItem(Arith(Add))]))
  {
    SymbolName("+");
    SingleDigit('1');
    NumberToken(v, "1", 1);
    WordToken(v, "+");
    PlainRun(v, [], toks);
    assert toks[1..][1..] == [];
    assert Expand(v, toks[1..]) == [ExecItem(Arith(Add))];
    assert Expand(v, toks) == [Lit(1), ExecItem(Arith(Add))];
    assert [] + Expand(v, toks) == Expand(v, toks);
  }

  /** `1 +` underflows, and the lone value is lost. */
  lemma LoneValueLostLine()
    ensures Eval(New(), "1 +") == EvalOutcome(Forth(InitialWordMap, []), Err(StackUnderflow))
  {
    InitialHasArith();
    LoneValueTokens();
    LoneValueParse(InitialWordMap, ["1", "+"]);
    ExecuteCons([], [Lit(1), ExecItem(Arith(Add))]);
  }

  /** The built-in stack words and markers the redefinition scenario uses,
      and no user words yet. */
  predicate ScenarioStart(v: Vocab) {
    && HasMarkers(v)
    && "DUP" in v && v["DUP"] == [ExecItem(Stack(Dup))]
    && "DROP" in v && v["DROP"] == [ExecItem(Stack(Drop))]
    && "FOO" !in v && "BAR" !in v
  }

  lemma InitialScenarioStart()
    ensures ScenarioStart(InitialWordMap)
  {
  }

  lemma ScenarioNames()
    ensures ParseValue("FOO") == None && Upper("FOO") == "FOO"
    ensures ParseValue("BAR") == None && Upper("BAR") == "BAR"
    ensures ParseValue("DUP") == None && Upper("DUP") == "DUP"
    ensures ParseValue("DROP") == None && Upper("DROP") == "DROP"
  {
    WordName("FOO");
    WordName("BAR");
    WordName("DUP");
    WordName("DROP");
  }

  /** Every token of the redefinition scenario is clean. */
  lemma ScenarioClean()
    ensures CleanToken(":") && CleanToken(";") && CleanToken("1")
    ensures CleanToken("FOO") && CleanToken("BAR") && CleanToken("DUP") && CleanToken("DROP")
  {
  }

  lemma Line4(a: string, b: string, c: string, d: string)
    requires CleanToken(a) && CleanToken(b) && CleanToken(c) && CleanToken(d)
    ensures Tokenize(a + " " + b + " " + c + " " + d) == [a, b] + [c] + [d]
  {
    var toks := [a, b, c, d];
    assert Join(toks[3..]) == d;
    assert Join(toks[2..]) == c + " " + d;
    assert Join(toks[1..]) == b + " " + c + " " + d;
    LineTokens(a + " " + b + " " + c + " " + d, toks);
  }

  lemma DefineFooDupTokens()
    ensures Tokenize(": FOO DUP ;") == [":", "FOO"] + ["DUP"] + [";"]
  {
    ScenarioClean();
    Line4(":", "FOO", "DUP", ";");
    assert ":" + " " + "FOO" + " " + "DUP" + " " + ";" == ": FOO DUP ;";
  }

  lemma DefineBarFooTokens()
    ensures Tokenize(": BAR FOO ;") == [":", "BAR"] + ["FOO"] + [";"]
  {
    ScenarioClean();
    Line4(":", "BAR", "FOO", ";");
    assert ":" + " " + "BAR" + " " + "FOO" + " " + ";" == ": BAR FOO ;";
  }

  lemma DefineFooDropTokens()
    ensures Tokenize(": FOO DROP ;") == [":", "FOO"] + ["DROP"] + [";"]
  {
    ScenarioClean();
    Line4(":", "FOO", "DROP", ";");
    assert ":" + " " + "FOO" + " " + "DROP" + " " + ";" == ": FOO DROP ;";
  }

  lemma CallBarTokens()
    ensures Tokenize("1 BAR") == ["1", "BAR"]
  {
    ScenarioClean();
    var toks := ["1", "BAR"];
    assert Join(toks[1..]) == "BAR";
    LineTokens("1 BAR", toks);
  }

  /** `: name word ;` binds `name` to a copy of what `word` resolves to now. */
  lemma DefineOneWord(f: Forth, input: string, name: string, word: string)
    requires Tokenize(input) == [":", name] + [word] + [";"]
    requires HasMarkers(f.wordMap) && name != ";"
    requires !NameRefused(f.wordMap, name)
    requires BodyToken(f.wordMap, name, word)
    ensures Eval(f, input) ==
            EvalOutcome(Forth(f.wordMap[name := Resolved(f.wordMap, word)], f.stack), Ok(()))
  {
    var body := [word];
    assert body[0] == word && body[1..] == [];
    assert Expand(f.wordMap, body) == Resolved(f.wordMap, word) + Expand(f.wordMap, []);
    assert Resolved(f.wordMap, word) + [] == Resolved(f.wordMap, word);
    EvalDefinition(f, input, name, body);
  }

  /** A word not yet defined passes the name check. */
  lemma FreshName(v: Vocab, name: string)
    requires ParseValue(name) == None && Upper(name) == name && name !in v
    ensures !NameRefused(v, name)
  {
    assert Resolve(v, name) == Err(UnknownWord);
  }

  /** A defined word whose body is one stack word is a usable body token. */
  lemma StackWordToken(v: Vocab, name: string, word: string, w: StackWord)
    requires ParseValue(word) == None && Upper(word) == word && word != name
    requires word in v && v[word] == [ExecItem(Stack(w))]
    ensures BodyToken(v, name, word) && Resolved(v, word) == [ExecItem(Stack(w))]
  {
    assert Resolve(v, word) == Ok([ExecItem(Stack(w))]);
  }

  /** `: FOO DUP ;` binds FOO to a copy of DUP's body. */
  lemma DefineFooDup(f: Forth)
    requires ScenarioStart(f.wordMap)
    ensures Eval(f, ": FOO DUP ;") ==
            EvalOutcome(Forth(f.wordMap["FOO" := [ExecItem(Stack(Dup))]], f.stack), Ok(()))
  {
    ScenarioNames();
    DefineFooDupTokens();
    FreshName(f.wordMap, "FOO");
    StackWordToken(f.wordMap, "FOO", "DUP", Dup);
    DefineOneWord(f, ": FOO DUP ;", "FOO", "DUP");
  }

  /** `: BAR FOO ;` copies FOO's current body into BAR. */
  lemma DefineBarFoo(f: Forth)
    requires "FOO" in f.wordMap && f.wordMap["FOO"] == [ExecItem(Stack(Dup))] && "BAR" !in f.wordMap
    requires HasMarkers(f.wordMap)
    ensures Eval(f, ": BAR FOO ;") ==
            EvalOutcome(Forth(f.wordMap["BAR" := [ExecItem(Stack(Dup))]], f.stack), Ok(()))
  {
    ScenarioNames();
    DefineBarFooTokens();
    FreshName(f.wordMap, "BAR");
    StackWordToken(f.wordMap, "BAR", "FOO", Dup);
    DefineOneWord(f, ": BAR FOO ;", "BAR", "FOO");
  }

  /** `: FOO DROP ;` rebinds FOO; its old body does not end in a literal, so
      the name check lets it through. */
  lemma DefineFooDrop(f: Forth)
    requires "FOO" in f.wordMap && f.wordMap["FOO"] == [ExecItem(Stack(Dup))]
    requires "DROP" in f.wordMap && f.wordMap["DROP"] == [ExecItem(Stack(Drop))]
    requires HasMarkers(f.wordMap)
    ensures Eval(f, ": FOO DROP ;") ==
            EvalOutcome(Forth(f.wordMap["FOO" := [ExecItem(Stack(Drop))]], f.stack), Ok(()))
  {
    ScenarioNames();
    DefineFooDropTokens();
    assert !NameRefused(f.wordMap, "FOO") by {
      assert Resolve(f.wordMap, "FOO") == Ok([ExecItem(Stack(Dup))]);
    }
    StackWordToken(f.wordMap, "FOO", "DROP", Drop);
    DefineOneWord(f, ": FOO DROP ;", "FOO", "DROP");
  }

  lemma CallBarParse(v: Vocab, toks: seq<string>)
    requires "BAR" in v && v["BAR"] == [ExecItem(Stack(Dup))] && toks == ["1", "BAR"]
    ensures Run(Parser(Normal, v, []), toks) == ParseOutcome(v, Ok([Lit(1), ExecItem(Stack(Dup))]))
  {
    ScenarioNames();
    SingleDigit('1');
    NumberToken(v, "1", 1);
    WordToken(v, "BAR");
    PlainRun(v, [], toks);
    assert toks[1..][1..] == [];
    assert Expand(v, toks[1..]) == [ExecItem(Stack(Dup))];
    assert Expand(v, toks) == [Lit(1), ExecItem(Stack(Dup))];
    assert [] + Expand(v, toks) == Expand(v, toks);
  }

  /** `1 BAR` runs BAR's own copy of the old FOO body. */
  lemma CallBar(f: Forth)
    requires "BAR" in f.wordMap && f.wordMap["BAR"] == [ExecItem(Stack(Dup))]
    ensures Eval(f, "1 BAR") == EvalOutcome(Forth(f.wordMap, f.stack + [1, 1]), Ok(()))
  {
    CallBarLine(f.wordMap);
    DupAfterOne(f.stack);
  }

  lemma CallBarLine(v: Vocab)
    requires "BAR" in v && v["BAR"] == [ExecItem(Stack(Dup))]
    ensures InputParse(v, "1 BAR") == ParseOutcome(v, Ok([Lit(1), ExecItem(Stack(Dup))]))
  {
    CallBarTokens();
    CallBarParse(v, ["1", "BAR"]);
  }

  /** Pushing 1 and duplicating it leaves two ones on top. */
  lemma DupAfterOne(s: seq<Value>)
    ensures Execute(s, [Lit(1), ExecItem(Stack(Dup))]) == Effect(s + [1, 1], Ok(()))
  {
    var items := [Lit(1), ExecItem(Stack(Dup))];
    ExecuteCons(s, items);
    ExecuteCons(s + [1], items[1..]);
    assert s + [1] + [1] == s + [1, 1];
  }

  /** Word bodies are copies taken when the word is used: after
      `: FOO DUP ;`, `: BAR FOO ;` and `: FOO DROP ;`, BAR still duplicates,
      so `1 BAR` leaves `1 1`. */
  lemma RedefinitionSnapshot()
    ensures var f1 := Eval(New(), ": FOO DUP ;").forth;
            var f2 := Eval(f1, ": BAR FOO ;").forth;
            var f3 := Eval(f2, ": FOO DROP ;").forth;
            Eval(f3, "1 BAR") == EvalOutcome(Forth(f3.wordMap, [1, 1]), Ok(()))
  {
    var v0 := InitialWordMap;
    InitialScenarioStart();
    DefineFooDup(New());
    var v1 := v0["FOO" := [ExecItem(Stack(Dup))]];
    assert HasMarkers(v1) && "BAR" !in v1;
    DefineBarFoo(Forth(v1, []));
    var v2 := v1["BAR" := [ExecItem(Stack(Dup))]];
    assert HasMarkers(v2) && v2["DROP"] == [ExecItem(Stack(Drop))];
    DefineFooDrop(Forth(v2, []));
    var v3 := v2["FOO" := [ExecItem(Stack(Drop))]];
    assert v3["BAR"] == [ExecItem(Stack(Dup))];
    CallBar(Forth(v3, []));
  }
}

=== FILE: interpreter.dfy ===
/** The interpreter value: its vocabulary and stack, evaluation of one input
    line, and the textual rendering of the stack. */
module Interpreter {
  import opened Wrappers
  import opened Words
  import opened Numerals
  import opened Text
  import opened Evaluator
  import opened Parser
  import opened ParserProperties

  /** An interpreter: the word definitions and the value stack (bottom first). */
  datatype Forth = Forth(wordMap: Vocab, stack: seq<Value>)

  /** What evaluating a line leaves behind: the interpreter, changed even
      when the line fails, and whether it succeeded. */
  datatype EvalOutcome = EvalOutcome(forth: Forth, result: Result<(), Error>)

  /** A fresh interpreter: the built-in words and an empty stack. */
  function New(): Forth {
    Forth(InitialWordMap, [])
  }

  /** Every value, on the stack and in the definitions, fits in 32 bits. */
  predicate Valid(f: Forth) {
    VocabI32(f.wordMap) && StackI32(f.stack)
  }

  /** Evaluating one line: the whole line is parsed first, and only a line
      that parses is executed.  A parse failure leaves the stack alone but
      keeps any definitions it made; an execution failure keeps the effects
      of the items before it. */
  function Eval(f: Forth, input: string): (r: EvalOutcome)
    ensures r.forth.wordMap == InputParse(f.wordMap, input).vocab
    ensures InputParse(f.wordMap, input).result.Err? ==>
              r == EvalOutcome(Forth(r.forth.wordMap, f.stack), Err(InputParse(f.wordMap, input).result.error))
    ensures InputParse(f.wordMap, input).result.Ok? ==>
              r.forth.stack == Execute(f.stack, InputParse(f.wordMap, input).result.value).stack &&
              r.result == Execute(f.stack, InputParse(f.wordMap, input).result.value).status
  {
    var parsed := InputParse(f.wordMap, input);
    match parsed.result
    case Err(e) => EvalOutcome(Forth(parsed.vocab, f.stack), Err(e))
    case Ok(items) =>
      var run := Execute(f.stack, items);
      EvalOutcome(Forth(parsed.vocab, run.stack), run.status)
  }

  /** Each value's rendering followed by a space, bottom to top. */
  function SpaceTerminated(stack: seq<Value>): string
    decreases |stack|
  {
    if |stack| == 0 then "" else Render(stack[0]) + " " + SpaceTerminated(stack[1..])
  }

  /** The stack as text: every rendering followed by a space, then trimmed. */
  function FormatStack(f: Forth): string {
    Trim(SpaceTerminated(f.stack))
  }

  /** The renderings of the stack's values, bottom to top. */
  function Renders(stack: seq<Value>): (r: seq<string>)
    ensures |r| == |stack|
    ensures forall i :: 0 <= i < |stack| ==> r[i] == Render(stack[i])
    decreases |stack|
  {
    if |stack| == 0 then [] else [Render(stack[0])] + Renders(stack[1..])
  }

  lemma {:induction false} SpaceTerminatedIsJoin(stack: seq<Value>)
    requires |stack| > 0
    ensures SpaceTerminated(stack) == Join(Renders(stack)) + " "
    decreases |stack|
  {
    var rs := Renders(stack);
    var head := Render(stack[0]) + " ";
    if |stack| == 1 {
      assert stack[1..] == [];
      assert SpaceTerminated(stack) == head + "";
      assert Join(rs) == Render(stack[0]);
    } else {
      SpaceTerminatedIsJoin(stack[1..]);
      var tail := Join(Renders(stack[1..]));
      assert rs[1..] == Renders(stack[1..]);
      assert Join(rs) == Render(stack[0]) + " " + tail;
      assert SpaceTerminated(stack) == head + (tail + " ");
      assert head + (tail + " ") == (head + tail) + " ";
    }
  }

  /** The formatted stack is the values' renderings, bottom to top, joined
      by single spaces; an empty stack formats as the empty string. */
  lemma FormatStackIsJoin(f: Forth)
    ensures FormatStack(f) == Join(Renders(f.stack))
    ensures f.stack == [] ==> FormatStack(f) == ""
  {
    if |f.stack| > 0 {
      var rs := Renders(f.stack);
      SpaceTerminatedIsJoin(f.stack);
      JoinEnds(rs);
      TrimSpaceAfter(Join(rs));
    }
  }

  /** A rendering is a single clean token that parses back to its value. */
  lemma RenderIsToken(v: Value)
    requires IsI32(v)
    ensures CleanToken(Render(v))
    ensures ParseValue(Render(v)) == Some(v)
  {
    RenderRoundTrip(v);
    var s := Render(v);
    forall i | 0 <= i < |s| ensures IsDigit(s[i]) || s[i] == '-' {
      if i > 0 { assert s[1..][i - 1] == s[i]; }
    }
  }

  lemma RendersAreTokens(stack: seq<Value>)
    requires StackI32(stack)
    ensures forall k :: 0 <= k < |stack| ==>
              CleanToken(Renders(stack)[k])
    ensures forall k :: 0 <= k < |stack| ==> ParseValue(Renders(stack)[k]) == Some(stack[k])
  {
    forall k | 0 <= k < |stack|
      ensures CleanToken(Renders(stack)[k])
      ensures ParseValue(Renders(stack)[k]) == Some(stack[k])
    {
      RenderIsToken(stack[k]);
    }
  }

  /** Evaluating the formatted text of a 32-bit stack pushes exactly that
      stack again, leaves the definitions alone and succeeds. */
  lemma FormatThenEval(f: Forth, stack: seq<Value>)
    requires StackI32(stack)
    ensures Eval(f, FormatStack(Forth(f.wordMap, stack))) ==
            EvalOutcome(Forth(f.wordMap, f.stack + stack), Ok(()))
  {
    FormatThenParse(f.wordMap, stack);
    ExecuteLiterals(f.stack, stack);
  }

  /** The formatted stack parses back to one literal per value. */
  lemma FormatThenParse(v: Vocab, stack: seq<Value>)
    requires StackI32(stack)
    ensures InputParse(v, FormatStack(Forth(v, stack))) == ParseOutcome(v, Ok(Lits(stack)))
  {
    var toks := Renders(stack);
    assert InputParse(v, FormatStack(Forth(v, stack))) == Run(Parser(Normal, v, []), toks) by {
      FormatTokens(Forth(v, stack));
    }
    assert Run(Parser(Normal, v, []), toks) == ParseOutcome(v, Ok([] + Lits(stack))) by {
      RendersParse(stack);
      NumericTokens(v, [], toks);
    }
    assert [] + Lits(stack) == Lits(stack);
  }

  /** The renderings of a 32-bit stack are numeric tokens whose values are
      the stack. */
  lemma RendersParse(stack: seq<Value>)
    requires StackI32(stack)
    ensures forall k :: 0 <= k < |stack| ==> ParseValue(Renders(stack)[k]).Some?
    ensures Values(Renders(stack)) == stack
  {
    RendersAreTokens(stack);
    var vs := Values(Renders(stack));
    assert |vs| == |stack|;
    forall k | 0 <= k < |stack| ensures vs[k] == stack[k] {
      assert ParseValue(Renders(stack)[k]) == Some(vs[k]);
    }
  }

  /** The tokens of the formatted stack are the values' renderings. */
  lemma FormatTokens(f: Forth)
    requires StackI32(f.stack)
    ensures Tokenize(FormatStack(f)) == Renders(f.stack)
  {
    FormatStackIsJoin(f);
    RendersAreTokens(f.stack);
    TokenizeJoin(Renders(f.stack));
  }

  /** A line of numbers only pushes its values in order and never fails. */
  lemma EvalNumbers(f: Forth, input: string)
    requires forall k :: 0 <= k < |Tokenize(input)| ==> ParseValue(Tokenize(input)[k]).Some?
    ensures Eval(f, input) == EvalOutcome(Forth(f.wordMap, f.stack + Values(Tokenize(input))), Ok(()))
  {
    var toks := Tokenize(input);
    NumericTokens(f.wordMap, [], toks);
    assert [] + Lits(Values(toks)) == Lits(Values(toks));
    ExecuteLiterals(f.stack, Values(toks));
  }

  /** A line holding one complete definition binds the name to the copied
      body, leaves every other word and the stack alone, and succeeds. */
  lemma EvalDefinition(f: Forth, input: string, name: string, body: seq<string>)
    requires Tokenize(input) == [":", name] + body + [";"]
    requires HasMarkers(f.wordMap) && name != ";"
    requires !NameRefused(f.wordMap, name)
    requires forall k :: 0 <= k < |body| ==> BodyToken(f.wordMap, name, body[k])
    ensures Eval(f, input) ==
            EvalOutcome(Forth(f.wordMap[name := Expand(f.wordMap, body)], f.stack), Ok(()))
  {
    assert [":", name] + body + [";"] + [] == Tokenize(input);
    Define(f.wordMap, [], name, body, []);
  }

  /** A line that opens a definition and never closes it fails with
      `InvalidWord`; the stack is untouched but the partial body is kept. */
  lemma EvalUnterminated(f: Forth, input: string, name: string, body: seq<string>)
    requires Tokenize(input) == [":", name] + body
    requires HasMarkers(f.wordMap)
    requires !NameRefused(f.wordMap, name)
    requires forall k :: 0 <= k < |body| ==> BodyToken(f.wordMap, name, body[k])
    ensures Eval(f, input) ==
            EvalOutcome(Forth(f.wordMap[name := Expand(f.wordMap, body)], f.stack), Err(InvalidWord))
  {
    Unterminated(f.wordMap, [], name, body);
  }

  /** A `;` outside a definition is emitted as a delimiter item, which
      execution skips: the line changes nothing and succeeds. */
  lemma StraySemiColon(f: Forth, input: string)
    requires Tokenize(input) == [";"]
    requires HasSemiColon(f.wordMap)
    ensures Eval(f, input) == EvalOutcome(f, Ok(()))
  {
    MarkerTokens();
    var toks := Tokenize(input);
    assert Resolve(f.wordMap, ";") == Ok([SymbolItem(SemiColon)]);
    assert Last([SymbolItem(SemiColon)]) == Some(SymbolItem(SemiColon));
    assert [] + [SymbolItem(SemiColon)] == [SymbolItem(SemiColon)];
    assert toks[0] == ";";
    RunCons(Parser(Normal, f.wordMap, []), toks, Parser(Normal, f.wordMap, [SymbolItem(SemiColon)]));
    assert toks[1..] == [];
    ExecuteSkipsSymbol(f.stack, SemiColon, []);
    assert [SymbolItem(SemiColon)] + [] == [SymbolItem(SemiColon)];
  }

  /** Upper-casing a line does not change what it does. */
  lemma EvalCaseInsensitive(f: Forth, input: string)
    ensures Eval(f, Upper(input)) == Eval(f, input)
  {
    TokenizeCaseInsensitive(input);
  }

  /** Evaluation keeps every value within 32 bits, whether the line
      succeeds or fails. */
  lemma EvalKeepsValid(f: Forth, input: string)
    requires Valid(f)
    ensures Valid(Eval(f, input).forth)
  {
    var p := Parser(Normal, f.wordMap, []);
    RunKeepsI32(p, Tokenize(input));
    var parsed := InputParse(f.wordMap, input);
    if parsed.result.Ok? {
      ExecuteKeepsI32(f.stack, parsed.result.value);
    }
  }

  /** A fresh interpreter is valid and its stack formats as the empty string. */
  lemma NewIsEmpty()
    ensures Valid(New()) && FormatStack(New()) == ""
  {
    InitialWordMapI32();
    assert FormatStack(New()) == "" by {
      assert SpaceTerminated(New().stack) == "";
      assert TrimStart("") == "" && TrimEnd("") == "";
    }
  }
}

=== FILE: numerals.dfy ===
/** Decimal text for 32-bit values: the string-to-integer parse the resolver
    tries first, and the rendering the stack formatter uses. */
module Numerals {
  import opened Wrappers
  import opened Words

  predicate IsDigit(c: char) {
    '0' <= c <= '9'
  }

  predicate AllDigits(s: string) {
    forall i :: 0 <= i < |s| ==> IsDigit(s[i])
  }

  function DigitValue(c: char): (d: nat)
    requires IsDigit(c)
    ensures d < 10
  {
    c as int - '0' as int
  }

  function DigitChar(d: nat): (c: char)
    requires d < 10
    ensures IsDigit(c) && DigitValue(c) == d
  {
    ('0' as int + d) as char
  }

  /** The number a run of decimal digits denotes (empty denotes 0; leading zeros allowed). */
  function DigitsValue(s: string): nat
    requires AllDigits(s)
  {
    if |s| == 0 then 0 else DigitsValue(s[..|s| - 1]) * 10 + DigitValue(s[|s| - 1])
  }

  /** Parsing a token as a 32-bit signed integer: an optional `+` or `-`,
      then at least one ASCII digit and nothing else; a value out of range
      fails. */
  function ParseValue(s: string): (r: Option<Value>)
    ensures r.Some? ==> IsI32(r.value)
    ensures r.Some? ==> |s| > 0 && AllDigits(s[1..])
    ensures r.Some? ==> IsDigit(s[0]) || s[0] == '+' || s[0] == '-'
    ensures r.Some? ==> IsDigit(s[|s| - 1])
  {
    if |s| == 0 then None
    else
      var negative := s[0] == '-';
      var digits := if s[0] == '+' || s[0] == '-' then s[1..] else s;
      if |digits| == 0 || !AllDigits(digits) then None
      else
        var magnitude: int := DigitsValue(digits);
        var v: int := if negative then -magnitude else magnitude;
        if IsI32(v) then Some(v) else None
  }

  /** Decimal digits of a natural number, most significant first, no leading zero. */
  function Digits(n: nat): (s: string)
    ensures |s| > 0 && AllDigits(s)
    ensures n > 0 ==> s[0] != '0'
    decreases n
  {
    if n < 10 then [DigitChar(n)] else Digits(n / 10) + [DigitChar(n % 10)]
  }

  /** The decimal rendering of a value: a `-` for negatives, then its digits. */
  function Render(v: Value): (s: string)
    ensures |s| > 0
    ensures IsDigit(s[|s| - 1])
    ensures IsDigit(s[0]) || s[0] == '-'
    ensures AllDigits(s[1..])
  {
    if v < 0 then "-" + Digits(-v) else Digits(v)
  }

  lemma {:induction false} DigitsRoundTrip(n: nat)
    ensures DigitsValue(Digits(n)) == n
    decreases n
  {
    if n >= 10 {
      var s := Digits(n);
      DigitsRoundTrip(n / 10);
      assert s[..|s| - 1] == Digits(n / 10);
    }
  }

  /** Rendering a 32-bit value and parsing the text gives the value back. */
  lemma RenderRoundTrip(v: Value)
    requires IsI32(v)
    ensures ParseValue(Render(v)) == Some(v)
  {
    var n: nat := if v < 0 then -v else v;
    var d := Digits(n);
    DigitsRoundTrip(n);
    if v < 0 {
      var s := "-" + d;
      assert Render(v) == s;
      assert s[0] == '-' && s[1..] == d;
    } else {
      assert Render(v) == d;
      assert d[0] != '+' && d[0] != '-';
    }
  }

  /** A sign on its own is not a number, so `+` and `-` always name words. */
  lemma LoneSignRejected()
    ensures ParseValue("+") == None && ParseValue("-") == None
  {
    assert "+"[1..] == [] && "-"[1..] == [];
  }

  /** Only a token whose every character after an optional leading sign is a
      digit parses, so a word name with a letter never does. */
  lemma ParseRejectsNonDigit(s: string, i: int)
    requires 0 <= i < |s|
    requires !IsDigit(s[i]) && !(i == 0 && (s[i] == '+' || s[i] == '-'))
    ensures ParseValue(s) == None
  {
  }
}

=== FILE: parser.dfy ===
/** Word resolution and the definition state machine that turns one input
    line into a flat item list, updating the vocabulary as it goes. */
module Parser {
  import opened Wrappers
  import opened Words
  import opened Numerals
  import opened Text

  /** Resolving one token: a token that parses as a 32-bit integer is a
      single literal, whatever the vocabulary holds; otherwise it is the
      stored body of its upper-cased name, copied; otherwise unknown. */
  function Resolve(vocab: Vocab, s: string): (r: Result<seq<Item>, Error>)
    ensures ParseValue(s).Some? ==> r == Ok([Lit(ParseValue(s).value)])
    ensures ParseValue(s).None? ==> (r.Ok? <==> Upper(s) in vocab)
    ensures ParseValue(s).None? && r.Ok? ==> r.value == vocab[Upper(s)]
    ensures r.Err? ==> r.error == UnknownWord
  {
    match ParseValue(s)
    case Some(v) => Ok([Lit(v)])
    case None =>
      var key := Upper(s);
      if key in vocab then Ok(vocab[key]) else Err(UnknownWord)
  }

  /** The last item of a resolution; the state machine looks only at it. */
  function Last(v: seq<Item>): Option<Item> {
    if |v| == 0 then None else Some(v[|v| - 1])
  }

  /** `Normal`: outside a definition.  `CustomInit`: the next token names the
      word being defined.  `Custom(name)`: tokens make up `name`'s body. */
  datatype ParseState = Normal | CustomInit | Custom(name: string)

  datatype Parser = Parser(state: ParseState, vocab: Vocab, items: seq<Item>)

  /** What parsing a line leaves behind: the vocabulary, changed even when the
      line fails, and the item list or the error. */
  datatype ParseOutcome = ParseOutcome(vocab: Vocab, result: Result<seq<Item>, Error>)

  /** A token outside a definition: `:` (any resolution ending in the colon)
      starts a definition, anything else is emitted whole. */
  function StepNormal(p: Parser, tok: string): (r: Result<Parser, Error>)
    ensures Resolve(p.vocab, tok).Err? ==> r == Err(UnknownWord)
    ensures Resolve(p.vocab, tok) == Ok([]) ==> r == Err(InvalidWord)
    ensures r.Ok? ==> r.value.vocab == p.vocab
    ensures r.Ok? ==> Resolve(p.vocab, tok).Ok? && |Resolve(p.vocab, tok).value| > 0
    ensures r.Ok? && r.value.state == Normal ==> r.value.items == p.items + Resolve(p.vocab, tok).value
    ensures r.Ok? ==> (r.value.state == CustomInit && r.value.items == p.items <==>
                       Last(Resolve(p.vocab, tok).value) == Some(SymbolItem(Colon)))
    ensures Resolve(p.vocab, tok).Ok? && |Resolve(p.vocab, tok).value| > 0 ==> r.Ok?
    ensures r.Ok? && Last(Resolve(p.vocab, tok).value) != Some(SymbolItem(Colon)) ==>
              r.value.state == Normal && r.value.items == p.items + Resolve(p.vocab, tok).value
  {
    var v :- Resolve(p.vocab, tok);
    match Last(v)
    case None => Err(InvalidWord)
    case Some(last) =>
      if last == SymbolItem(Colon) then Ok(p.(state := CustomInit))
      else Ok(p.(state := Normal, items := p.items + v))
  }

  /** Whether the name check after `:` refuses `tok`: it does so when the
      token currently resolves to an empty body or to one ending in a
      literal; a token that does not resolve at all passes. */
  predicate NameRefused(vocab: Vocab, tok: string) {
    match Resolve(vocab, tok)
    case Err(_) => false
    case Ok(v) =>
      match Last(v)
      case None => true
      case Some(last) => last.ExecItem? && last.exec.Literal?
  }

  /** The token after `:`: unless the name check refuses it, the name is
      bound to an empty body (replacing any earlier definition) and becomes
      the word under construction. */
  function StepCustomInit(p: Parser, tok: string): (r: Result<Parser, Error>)
    ensures ParseValue(tok).Some? ==> r == Err(InvalidWord)
    ensures Resolve(p.vocab, tok).Err? ==> r.Ok?
    ensures r.Err? <==> NameRefused(p.vocab, tok)
    ensures r.Err? ==> r.error == InvalidWord
    ensures r.Ok? ==> r.value.state == Custom(tok) && r.value.items == p.items
    ensures r.Ok? ==> tok in r.value.vocab && r.value.vocab[tok] == []
    ensures r.Ok? ==> forall k :: k != tok ==> (k in r.value.vocab <==> k in p.vocab)
    ensures r.Ok? ==> forall k :: k != tok && k in p.vocab ==> r.value.vocab[k] == p.vocab[k]
  {
    if NameRefused(p.vocab, tok) then Err(InvalidWord)
    else Ok(Parser(Custom(tok), p.vocab[tok := []], p.items))
  }

  /** A token inside the definition of `name`, the word the state names:
      `;` (any resolution ending in the semicolon) closes it, anything else
      is appended to `name`'s body and the definition stays open. */
  function StepCustom(p: Parser, name: string, tok: string): (r: Result<Parser, Error>)
    requires p.state == Custom(name)
    ensures Resolve(p.vocab, tok).Ok? && |Resolve(p.vocab, tok).value| > 0 <==> r.Ok?
    ensures r.Ok? && Last(Resolve(p.vocab, tok).value) != Some(SymbolItem(SemiColon)) ==>
              r.value.state == Custom(name)
    ensures Resolve(p.vocab, tok).Err? ==> r == Err(UnknownWord)
    ensures Resolve(p.vocab, tok) == Ok([]) ==> r == Err(InvalidWord)
    ensures r.Ok? ==> r.value.items == p.items
    ensures r.Ok? && Last(Resolve(p.vocab, tok).value) == Some(SymbolItem(SemiColon)) ==>
              r.value == p.(state := Normal)
    ensures r.Ok? && Last(Resolve(p.vocab, tok).value) != Some(SymbolItem(SemiColon)) && name in p.vocab ==>
              r.value.vocab == p.vocab[name := p.vocab[name] + Resolve(p.vocab, tok).value]
  {
    var v :- Resolve(p.vocab, tok);
    match Last(v)
    case None => Err(InvalidWord)
    case Some(last) =>
      if last == SymbolItem(SemiColon) then Ok(p.(state := Normal))
      else if name in p.vocab then Ok(p.(vocab := p.vocab[name := p.vocab[name] + v]))
      else Ok(p)
  }

  /** One token in whatever state the parser is in.  Only the normal state
      emits items and only the definition states change the vocabulary;
      a failing step raises a parse error, never an execution error. */
  function Step(p: Parser, tok: string): (r: Result<Parser, Error>)
    ensures r.Ok? && p.state.Normal? ==> r.value.vocab == p.vocab
    ensures r.Ok? && !p.state.Normal? ==> r.value.items == p.items
    ensures r.Err? ==> !IsExecError(r.error)
  {
    match p.state
    case Normal => StepNormal(p, tok)
    case CustomInit => StepCustomInit(p, tok)
    case Custom(name) => StepCustom(p, name, tok)
  }

  /** Feeding tokens to the state machine left to right.  The first failing
      token ends the line with its error; a line that ends inside a
      definition fails with `InvalidWord`.  Vocabulary changes made before a
      failure are kept. */
  function Run(p: Parser, toks: seq<string>): (r: ParseOutcome)
    ensures |toks| == 0 ==> r.vocab == p.vocab
    ensures |toks| == 0 && p.state != Normal ==> r.result == Err(InvalidWord)
    ensures r.result.Err? ==> !IsExecError(r.result.error)
    decreases |toks|
  {
    if |toks| == 0 then
      if p.state.Normal? then ParseOutcome(p.vocab, Ok(p.items))
      else ParseOutcome(p.vocab, Err(InvalidWord))
    else
      match Step(p, toks[0])
      case Err(e) => ParseOutcome(p.vocab, Err(e))
      case Ok(next) => Run(next, toks[1..])
  }

  /** Parsing a whole input line against a vocabulary. */
  function InputParse(vocab: Vocab, input: string): (r: ParseOutcome)
    ensures r.result.Err? ==> r.result.error == UnknownWord || r.result.error == InvalidWord
  {
    Run(Parser(Normal, vocab, []), Tokenize(input))
  }
}

=== FILE: parser_properties.dfy ===
/** What the definition state machine guarantees over whole token runs. */
module ParserProperties {
  import opened Wrappers
  import opened Words
  import opened Numerals
  import opened Text
  import opened Parser

  /** A token that may sit inside the body of `name` in a simple definition:
      it resolves to a non-empty sequence not ending in `;`, and it is not a
      reference to `name` itself. */
  predicate BodyToken(v: Vocab, name: string, t: string) {
    && Resolve(v, t).Ok?
    && |Resolve(v, t).value| > 0
    && Last(Resolve(v, t).value) != Some(SymbolItem(SemiColon))
    && (ParseValue(t).None? ==> Upper(t) != name)
  }

  /** What a token contributes to a body: its resolution, or nothing if it
      does not resolve (the lemmas only use resolvable tokens). */
  function Resolved(v: Vocab, t: string): seq<Item> {
    match Resolve(v, t)
    case Ok(r) => r
    case Err(_) => []
  }

  /** The items a run of tokens resolves to, concatenated. */
  function Expand(v: Vocab, toks: seq<string>): seq<Item>
    decreases |toks|
  {
    if |toks| == 0 then [] else Resolved(v, toks[0]) + Expand(v, toks[1..])
  }

  /** The values of a run of numeric tokens. */
  function Values(toks: seq<string>): (vs: seq<Value>)
    requires forall k :: 0 <= k < |toks| ==> ParseValue(toks[k]).Some?
    ensures |vs| == |toks|
    ensures forall k :: 0 <= k < |toks| ==> ParseValue(toks[k]) == Some(vs[k])
    decreases |toks|
  {
    if |toks| == 0 then [] else [ParseValue(toks[0]).value] + Values(toks[1..])
  }

  /** The markers of the initial vocabulary resolve to themselves. */
  predicate HasMarkers(v: Vocab) {
    ":" in v && v[":"] == [SymbolItem(Colon)] && HasSemiColon(v)
  }

  predicate HasSemiColon(v: Vocab) {
    ";" in v && v[";"] == [SymbolItem(SemiColon)]
  }

  lemma MarkerTokens()
    ensures ParseValue(":") == None && Upper(":") == ":"
    ensures ParseValue(";") == None && Upper(";") == ";"
  {
    assert !AllDigits(":") by { assert !IsDigit(":"[0]); }
    assert !AllDigits(";") by { assert !IsDigit(";"[0]); }
    assert Upper(":")[0] == ':';
    assert Upper(";")[0] == ';';
  }

  /** A built-in name is not a number and is its own upper case, so it
      resolves to its own entry. */
  lemma BuiltinName(name: string)
    requires name in InitialWordMap
    ensures ParseValue(name) == None && Upper(name) == name
  {
    LoneSignRejected();
    if name != "+" && name != "-" {
      ParseRejectsNonDigit(name, 0);
    }
    UpperOfNoLower(name);
  }

  /** The initial vocabulary holds the two definition markers, binds every
      built-in name to a single item, and lets every built-in be redefined:
      no built-in body is empty or ends in a literal. */
  lemma BuiltinsRedefinable()
    ensures HasMarkers(InitialWordMap)
    ensures forall name :: name in InitialWordMap ==>
              |InitialWordMap[name]| == 1 && !NameRefused(InitialWordMap, name)
  {
    forall name | name in InitialWordMap
      ensures |InitialWordMap[name]| == 1 && !NameRefused(InitialWordMap, name)
    {
      BuiltinName(name);
    }
  }

  /** Rebinding one name leaves the resolution of every other token alone:
      a body copied earlier does not follow later redefinitions. */
  lemma ResolveUnaffected(v: Vocab, name: string, x: seq<Item>, t: string)
    requires ParseValue(t).None? ==> Upper(t) != name
    ensures Resolve(v[name := x], t) == Resolve(v, t)
  {
  }

  lemma {:induction false} ExpandUnaffected(v: Vocab, name: string, x: seq<Item>, toks: seq<string>)
    requires forall k :: 0 <= k < |toks| ==> BodyToken(v, name, toks[k])
    ensures forall k :: 0 <= k < |toks| ==> BodyToken(v[name := x], name, toks[k])
    ensures Expand(v[name := x], toks) == Expand(v, toks)
    decreases |toks|
  {
    forall k | 0 <= k < |toks| ensures BodyToken(v[name := x], name, toks[k]) {
      ResolveUnaffected(v, name, x, toks[k]);
    }
    if |toks| > 0 {
      ResolveUnaffected(v, name, x, toks[0]);
      ExpandUnaffected(v, name, x, toks[1..]);
    }
  }

  /** One successful step, then the rest of the tokens. */
  lemma RunCons(p: Parser, toks: seq<string>, next: Parser)
    requires |toks| > 0 && Step(p, toks[0]) == Ok(next)
    ensures Run(p, toks) == Run(next, toks[1..])
  {
  }

  /** Inside a definition, each body token's resolution is appended to the
      body in order, and the state stays in the definition. */
  lemma {:induction false} BodyRun(v: Vocab, name: string, items: seq<Item>, body: seq<string>, rest: seq<string>)
    requires name in v
    requires forall k :: 0 <= k < |body| ==> BodyToken(v, name, body[k])
    ensures Run(Parser(Custom(name), v, items), body + rest) ==
            Run(Parser(Custom(name), v[name := v[name] + Expand(v, body)], items), rest)
    decreases |body|
  {
    if |body| == 0 {
      assert body + rest == rest;
      assert Expand(v, body) == [];
      assert v[name] + [] == v[name];
      assert v[name := v[name]] == v;
    } else {
      var t := body[0];
      var v1 := v[name := v[name] + Resolved(v, t)];
      BodyStep(v, name, items, body + rest);
      assert (body + rest)[1..] == body[1..] + rest;
      ExpandUnaffected(v, name, v[name] + Resolved(v, t), body[1..]);
      BodyRun(v1, name, items, body[1..], rest);
      BodyAppend(v, name, body);
    }
  }

  /** One body token inside the definition of `name`. */
  lemma BodyStep(v: Vocab, name: string, items: seq<Item>, toks: seq<string>)
    requires name in v && |toks| > 0 && BodyToken(v, name, toks[0])
    ensures Run(Parser(Custom(name), v, items), toks) ==
            Run(Parser(Custom(name), v[name := v[name] + Resolved(v, toks[0])], items), toks[1..])
  {
    var v1 := v[name := v[name] + Resolved(v, toks[0])];
    assert StepCustom(Parser(Custom(name), v, items), name, toks[0]) == Ok(Parser(Custom(name), v1, items));
    RunCons(Parser(Custom(name), v, items), toks, Parser(Custom(name), v1, items));
  }

  lemma BodyAppend(v: Vocab, name: string, body: seq<string>)
    requires name in v && |body| > 0
    requires forall k :: 1 <= k < |body| ==> BodyToken(v, name, body[k])
    ensures var v1 := v[name := v[name] + Resolved(v, body[0])];
            v1[name := v1[name] + Expand(v1, body[1..])] == v[name := v[name] + Expand(v, body)]
  {
    var x := v[name] + Resolved(v, body[0]);
    var v1 := v[name := x];
    var e := Expand(v, body[1..]);
    assert Expand(v1, body[1..]) == e by {
      ExpandUnaffected(v, name, x, body[1..]);
    }
    assert x + e == v[name] + Expand(v, body) by {
      assert Expand(v, body) == Resolved(v, body[0]) + e;
    }
    UpdateTwice(v, name, x, x + e);
  }

  /** The opening `: name` of a definition whose name passes the check:
      two steps that bind `name` to an empty body and enter its definition. */
  lemma OpenDefinition(v: Vocab, items: seq<Item>, name: string, rest: seq<string>)
    requires HasMarkers(v)
    requires !NameRefused(v, name)
    ensures Run(Parser(Normal, v, items), [":", name] + rest) ==
            Run(Parser(Custom(name), v[name := []], items), rest)
  {
    MarkerTokens();
    var toks := [":", name] + rest;
    assert toks[0] == ":" && toks[1..] == [name] + rest;
    assert Resolve(v, ":") == Ok([SymbolItem(Colon)]);
    RunCons(Parser(Normal, v, items), toks, Parser(CustomInit, v, items));
    assert ([name] + rest)[0] == name && ([name] + rest)[1..] == rest;
    RunCons(Parser(CustomInit, v, items), [name] + rest, Parser(Custom(name), v[name := []], items));
  }

  /** The closing `;` of a definition returns to the normal state. */
  lemma CloseDefinition(v: Vocab, items: seq<Item>, name: string, rest: seq<string>)
    requires HasSemiColon(v)
    ensures Run(Parser(Custom(name), v, items), [";"] + rest) == Run(Parser(Normal, v, items), rest)
  {
    MarkerTokens();
    assert Resolve(v, ";") == Ok([SymbolItem(SemiColon)]);
    assert ([";"] + rest)[0] == ";" && ([";"] + rest)[1..] == rest;
    RunCons(Parser(Custom(name), v, items), [";"] + rest, Parser(Normal, v, items));
  }

  /** The body run of a freshly opened definition leaves exactly the expanded body. */
  lemma FreshBody(v: Vocab, items: seq<Item>, name: string, body: seq<string>, rest: seq<string>)
    requires forall k :: 0 <= k < |body| ==> BodyToken(v, name, body[k])
    ensures Run(Parser(Custom(name), v[name := []], items), body + rest) ==
            Run(Parser(Custom(name), v[name := Expand(v, body)], items), rest)
  {
    var v0 := v[name := []];
    var e := Expand(v, body);
    ExpandUnaffected(v, name, [], body);
    BodyRun(v0, name, items, body, rest);
    var v1 := v0[name := v0[name] + Expand(v0, body)];
    assert v1 == v[name := e] by {
      assert v0[name] + Expand(v0, body) == e by {
        assert v0[name] == [];
        assert [] + e == e;
      }
      UpdateTwice(v, name, [], e);
    }
  }

  lemma UpdateTwice(v: Vocab, name: string, x: seq<Item>, y: seq<Item>)
    ensures v[name := x][name := y] == v[name := y]
  {
  }

  /** A complete definition `: name body ;` binds `name` to the concatenated
      resolutions of its body, replacing any earlier binding, changes no
      other entry, emits nothing, and returns to the normal state. */
  lemma Define(v: Vocab, items: seq<Item>, name: string, body: seq<string>, rest: seq<string>)
    requires HasMarkers(v) && name != ";"
    requires !NameRefused(v, name)
    requires forall k :: 0 <= k < |body| ==> BodyToken(v, name, body[k])
    ensures Run(Parser(Normal, v, items), [":", name] + body + [";"] + rest) ==
            Run(Parser(Normal, v[name := Expand(v, body)], items), rest)
  {
    var v2 := v[name := Expand(v, body)];
    assert [":", name] + body + [";"] + rest == [":", name] + (body + ([";"] + rest));
    OpenDefinition(v, items, name, body + ([";"] + rest));
    FreshBody(v, items, name, body, [";"] + rest);
    assert HasSemiColon(v2);
    CloseDefinition(v2, items, name, rest);
  }

  /** A definition left open at the end of the line fails the line with
      `InvalidWord`, but the partial body stays in the vocabulary. */
  lemma Unterminated(v: Vocab, items: seq<Item>, name: string, body: seq<string>)
    requires HasMarkers(v)
    requires !NameRefused(v, name)
    requires forall k :: 0 <= k < |body| ==> BodyToken(v, name, body[k])
    ensures Run(Parser(Normal, v, items), [":", name] + body) ==
            ParseOutcome(v[name := Expand(v, body)], Err(InvalidWord))
  {
    OpenDefinition(v, items, name, body);
    assert body + [] == body;
    FreshBody(v, items, name, body, []);
  }

  /** A body token that does not resolve ends the line with `UnknownWord`,
      and nothing is rolled back: the name stays bound to the body as it was
      before the failing token, and the tokens after it are never read. */
  lemma BodyFailure(v: Vocab, items: seq<Item>, name: string, body: seq<string>, bad: string, rest: seq<string>)
    requires HasMarkers(v)
    requires !NameRefused(v, name)
    requires forall k :: 0 <= k < |body| ==> BodyToken(v, name, body[k])
    requires Resolve(v, bad).Err? && (ParseValue(bad).None? ==> Upper(bad) != name)
    ensures Run(Parser(Normal, v, items), [":", name] + body + [bad] + rest) ==
            ParseOutcome(v[name := Expand(v, body)], Err(UnknownWord))
  {
    var v2 := v[name := Expand(v, body)];
    assert [":", name] + body + [bad] + rest == [":", name] + (body + ([bad] + rest));
    OpenDefinition(v, items, name, body + ([bad] + rest));
    FreshBody(v, items, name, body, [bad] + rest);
    ResolveUnaffected(v, name, Expand(v, body), bad);
    assert ([bad] + rest)[0] == bad;
  }

  /** A line of numbers only emits their literals in order and leaves the
      vocabulary as it was. */
  lemma {:induction false} NumericTokens(v: Vocab, items: seq<Item>, toks: seq<string>)
    requires forall k :: 0 <= k < |toks| ==> ParseValue(toks[k]).Some?
    ensures Run(Parser(Normal, v, items), toks) == ParseOutcome(v, Ok(items + Lits(Values(toks))))
    decreases |toks|
  {
    if |toks| == 0 {
      assert items + Lits([]) == items;
    } else {
      var x := ParseValue(toks[0]).value;
      NumericStep(v, items, toks);
      NumericTokens(v, items + [Lit(x)], toks[1..]);
      assert Values(toks) == [x] + Values(toks[1..]);
      LitsCons(items, x, Values(toks[1..]));
    }
  }

  lemma LitsCons(items: seq<Item>, x: Value, vs: seq<Value>)
    ensures items + [Lit(x)] + Lits(vs) == items + Lits([x] + vs)
  {
    assert ([x] + vs)[0] == x && ([x] + vs)[1..] == vs;
  }

  lemma NumericStep(v: Vocab, items: seq<Item>, toks: seq<string>)
    requires |toks| > 0 && ParseValue(toks[0]).Some?
    ensures Run(Parser(Normal, v, items), toks) ==
            Run(Parser(Normal, v, items + [Lit(ParseValue(toks[0]).value)]), toks[1..])
  {
    var x := ParseValue(toks[0]).value;
    assert Resolve(v, toks[0]) == Ok([Lit(x)]);
    RunCons(Parser(Normal, v, items), toks, Parser(Normal, v, items + [Lit(x)]));
  }

  /** A word outside a definition emits a copy of its current body. */
  lemma WordStep(v: Vocab, items: seq<Item>, toks: seq<string>)
    requires |toks| > 0 && ParseValue(toks[0]).None? && Upper(toks[0]) in v
    requires |v[Upper(toks[0])]| > 0 && Last(v[Upper(toks[0])]) != Some(SymbolItem(Colon))
    ensures Run(Parser(Normal, v, items), toks) ==
            Run(Parser(Normal, v, items + v[Upper(toks[0])]), toks[1..])
  {
    RunCons(Parser(Normal, v, items), toks, Parser(Normal, v, items + v[Upper(toks[0])]));
  }

  /** A token that outside a definition is emitted whole: it resolves to a
      non-empty sequence that does not end in `:`. */
  predicate PlainToken(v: Vocab, t: string) {
    Resolve(v, t).Ok? && |Resolved(v, t)| > 0 && Last(Resolved(v, t)) != Some(SymbolItem(Colon))
  }

  /** Outside definitions a line emits the copies of its tokens'
      resolutions, in order, and leaves the vocabulary alone. */
  lemma {:induction false} PlainRun(v: Vocab, items: seq<Item>, toks: seq<string>)
    requires forall k :: 0 <= k < |toks| ==> PlainToken(v, toks[k])
    ensures Run(Parser(Normal, v, items), toks) == ParseOutcome(v, Ok(items + Expand(v, toks)))
    decreases |toks|
  {
    if |toks| == 0 {
      assert items + [] == items;
    } else {
      var r := Resolved(v, toks[0]);
      PlainStep(v, items, toks[0]);
      RunCons(Parser(Normal, v, items), toks, Parser(Normal, v, items + r));
      PlainRun(v, items + r, toks[1..]);
      assert items + r + Expand(v, toks[1..]) == items + Expand(v, toks) by {
        assert Expand(v, toks) == r + Expand(v, toks[1..]);
      }
    }
  }

  /** A plain token appends its resolution and stays in the normal state. */
  lemma PlainStep(v: Vocab, items: seq<Item>, t: string)
    requires PlainToken(v, t)
    ensures Step(Parser(Normal, v, items), t) == Ok(Parser(Normal, v, items + Resolved(v, t)))
  {
    assert Resolve(v, t) == Ok(Resolved(v, t));
  }

  /** Items already emitted are never changed: a successful run only
      extends them. */
  lemma {:induction false} RunExtendsItems(p: Parser, toks: seq<string>)
    requires Run(p, toks).result.Ok?
    ensures p.items <= Run(p, toks).result.value
    decreases |toks|
  {
    if |toks| > 0 {
      var next := Step(p, toks[0]).value;
      assert p.items <= next.items;
      RunExtendsItems(next, toks[1..]);
    }
  }

  lemma StepKeepsI32(p: Parser, tok: string)
    requires VocabI32(p.vocab) && ItemsI32(p.items)
    requires Step(p, tok).Ok?
    ensures VocabI32(Step(p, tok).value.vocab) && ItemsI32(Step(p, tok).value.items)
  {
    var r := Resolve(p.vocab, tok);
    if r.Ok? {
      assert ItemsI32(r.value);
    }
  }

  /** Parsing keeps every literal within 32 bits, in the vocabulary (even
      after a failure) and in the emitted items. */
  lemma {:induction false} RunKeepsI32(p: Parser, toks: seq<string>)
    requires VocabI32(p.vocab) && ItemsI32(p.items)
    ensures VocabI32(Run(p, toks).vocab)
    ensures Run(p, toks).result.Ok? ==> ItemsI32(Run(p, toks).result.value)
    decreases |toks|
  {
    if |toks| > 0 && Step(p, toks[0]).Ok? {
      StepKeepsI32(p, toks[0]);
      RunKeepsI32(Step(p, toks[0]).value, toks[1..]);
    }
  }

  /** A word whose body ends in a literal cannot be redefined: the name
      check after `:` refuses it.  So `: foo 1 ; : foo 2 ;` fails, keeping
      the first definition. */
  lemma RedefineLiteralWordRefused(v: Vocab, items: seq<Item>, name: string, body: seq<string>, rest: seq<string>)
    requires HasMarkers(v) && name != ";" && name != ":"
    requires ParseValue(name).None? && Upper(name) == name
    requires !NameRefused(v, name)
    requires |body| > 0 && ParseValue(body[|body| - 1]).Some?
    requires forall k :: 0 <= k < |body| ==> BodyToken(v, name, body[k])
    ensures Run(Parser(Normal, v, items), [":", name] + body + [";"] + [":", name] + rest) ==
            ParseOutcome(v[name := Expand(v, body)], Err(InvalidWord))
  {
    MarkerTokens();
    var v2 := v[name := Expand(v, body)];
    Define(v, items, name, body, [":", name] + rest);
    assert [":", name] + body + [";"] + ([":", name] + rest) == [":", name] + body + [";"] + [":", name] + rest;
    ExpandEndsWithLast(v, body);
    var toks := [":", name] + rest;
    RunCons(Parser(Normal, v2, items), toks, Parser(CustomInit, v2, items));
    assert toks[1..][0] == name;
    assert NameRefused(v2, name);
  }

  lemma {:induction false} ExpandEndsWithLast(v: Vocab, toks: seq<string>)
    requires |toks| > 0
    requires forall k :: 0 <= k < |toks| ==> |Resolved(v, toks[k])| > 0
    ensures |Expand(v, toks)| > 0
    ensures Last(Expand(v, toks)) == Last(Resolved(v, toks[|toks| - 1]))
    decreases |toks|
  {
    if |toks| > 1 {
      ExpandEndsWithLast(v, toks[1..]);
    } else {
      assert Expand(v, toks) == Resolved(v, toks[0]) + [];
    }
  }

  /** A name refers to the partial body of the definition it appears in: a
      self-reference appends the body built so far to itself, and one made
      before anything was appended fails, since the body is still empty. */
  lemma SelfReference(v: Vocab, items: seq<Item>, name: string, tok: string)
    requires name in v && ParseValue(tok).None? && Upper(tok) == name
    ensures v[name] == [] ==> Step(Parser(Custom(name), v, items), tok) == Err(InvalidWord)
    ensures v[name] != [] && Last(v[name]) != Some(SymbolItem(SemiColon)) ==>
              Step(Parser(Custom(name), v, items), tok) == Ok(Parser(Custom(name), v[name := v[name] + v[name]], items))
  {
  }
}

=== FILE: text.dfy ===
/** Text handling around the interpreter: upper-casing the input line,
    turning control characters into spaces, splitting on whitespace, and the
    trimming and joining the stack formatter relies on. */
module Text {

  /** The Unicode control characters (general category Cc). */
  predicate IsControl(c: char) {
    c as int <= 0x1F || 0x7F <= c as int <= 0x9F
  }

  /** The Unicode White_Space characters, as string splitting and trimming use them. */
  predicate IsWhitespace(c: char) {
    var n := c as int;
    (0x09 <= n <= 0x0D) || n == 0x20 || n == 0x85 || n == 0xA0 || n == 0x1680
    || (0x2000 <= n <= 0x200A) || n == 0x2028 || n == 0x2029 || n == 0x202F
    || n == 0x205F || n == 0x3000
  }

  predicate IsLower(c: char) {
    'a' <= c <= 'z'
  }

  function UpperChar(c: char): char {
    if IsLower(c) then (c as int - 'a' as int + 'A' as int) as char else c
  }

  /** Upper-casing a whole string, character by character (ASCII letters
      only): each lower-case letter moves to its upper-case letter, every
      other character stays, and the length is kept. */
  function Upper(s: string): (r: string)
    ensures |r| == |s| && NoLower(r)
    ensures forall i :: 0 <= i < |s| && !IsLower(s[i]) ==> r[i] == s[i]
    ensures forall i :: 0 <= i < |s| && IsLower(s[i]) ==> 'A' <= r[i] <= 'Z' && r[i] as int + 32 == s[i] as int
  {
    seq(|s|, i requires 0 <= i < |s| => UpperChar(s[i]))
  }

  /** Every control character replaced by a single space: the result has no
      control characters, keeps the length and every other character in
      place, and a string without control characters is left alone. */
  function ToSpaceSeparated(s: string): (r: string)
    ensures |r| == |s| && NoControl(r)
    ensures forall i :: 0 <= i < |s| && !IsControl(s[i]) ==> r[i] == s[i]
    ensures forall i :: 0 <= i < |s| && IsControl(s[i]) ==> r[i] == ' '
    ensures NoControl(s) ==> r == s
  {
    seq(|s|, i requires 0 <= i < |s| => if IsControl(s[i]) then ' ' else s[i])
  }

  predicate NoLower(s: string) {
    forall i :: 0 <= i < |s| ==> !IsLower(s[i])
  }

  predicate NoControl(s: string) {
    forall i :: 0 <= i < |s| ==> !IsControl(s[i])
  }

  predicate NoWhitespace(s: string) {
    forall i :: 0 <= i < |s| ==> !IsWhitespace(s[i])
  }

  /** A token as splitting produces it: non-empty and free of whitespace. */
  predicate IsToken(s: string) {
    |s| > 0 && NoWhitespace(s)
  }

  /** A token as tokenizing an input line produces it: also free of
      lower-case letters and control characters. */
  predicate CleanToken(s: string) {
    IsToken(s) && NoLower(s) && NoControl(s)
  }

  /** Upper-casing twice is upper-casing once. */
  lemma UpperIdempotent(s: string)
    ensures Upper(Upper(s)) == Upper(s)
  {
  }

  /** A string without lower-case letters is its own upper case. */
  lemma UpperOfNoLower(s: string)
    requires NoLower(s)
    ensures Upper(s) == s
  {
  }

  /** Index of the first whitespace character, or |s| when there is none. */
  function FirstWhitespace(s: string): (i: nat)
    ensures i <= |s|
  {
    if |s| == 0 || IsWhitespace(s[0]) then 0 else 1 + FirstWhitespace(s[1..])
  }

  /** FirstWhitespace finds the first whitespace character: none comes
      before it. */
  lemma {:induction false} FirstWhitespaceIsFirst(s: string)
    ensures NoWhitespace(s[..FirstWhitespace(s)])
    ensures FirstWhitespace(s) < |s| ==> IsWhitespace(s[FirstWhitespace(s)])
    decreases |s|
  {
    if |s| > 0 && !IsWhitespace(s[0]) {
      FirstWhitespaceIsFirst(s[1..]);
      assert s[..FirstWhitespace(s)] == [s[0]] + s[1..][..FirstWhitespace(s[1..])];
    }
  }

  /** Splitting on whitespace: the maximal whitespace-free runs, in order. */
  function Split(s: string): seq<string>
    decreases |s|
  {
    if |s| == 0 then []
    else
      var i := FirstWhitespace(s);
      if i == 0 then Split(s[1..]) else [s[..i]] + Split(s[i..])
  }

  /** Tokens joined with single spaces between them. */
  function Join(tokens: seq<string>): string {
    if |tokens| == 0 then ""
    else if |tokens| == 1 then tokens[0]
    else tokens[0] + " " + Join(tokens[1..])
  }

  /** The input line's tokens: upper-cased, control characters turned to
      spaces, then split on whitespace. */
  function Tokenize(input: string): seq<string> {
    Split(ToSpaceSeparated(Upper(input)))
  }

  lemma {:induction false} FirstWhitespaceOfToken(t: string, rest: string)
    requires NoWhitespace(t)
    ensures FirstWhitespace(t + rest) == |t| + FirstWhitespace(rest)
    decreases |t|
  {
    if |t| > 0 {
      assert (t + rest)[1..] == t[1..] + rest;
      FirstWhitespaceOfToken(t[1..], rest);
    } else {
      assert t + rest == rest;
    }
  }

  /** A token followed by nothing or by whitespace is split off whole. */
  lemma SplitTokenThen(t: string, rest: string)
    requires IsToken(t)
    requires |rest| > 0 ==> IsWhitespace(rest[0])
    ensures Split(t + rest) == [t] + Split(rest)
  {
    var s := t + rest;
    FirstWhitespaceOfToken(t, rest);
    assert FirstWhitespace(s) == |t|;
    assert s[..|t|] == t;
    assert s[|t|..] == rest;
  }

  /** Leading whitespace is dropped. */
  lemma SplitLeadingWhitespace(c: char, rest: string)
    requires IsWhitespace(c)
    ensures Split([c] + rest) == Split(rest)
  {
    assert ([c] + rest)[1..] == rest;
  }

  /** A whitespace character separates: the tokens of `a`, then those of `b`. */
  lemma {:induction false} SplitAtWhitespace(a: string, w: char, b: string)
    requires IsWhitespace(w)
    ensures Split(a + [w] + b) == Split(a) + Split(b)
    decreases |a|
  {
    if |a| == 0 {
      assert a + [w] + b == [w] + b;
      SplitLeadingWhitespace(w, b);
    } else if IsWhitespace(a[0]) {
      SplitAtWhitespace(a[1..], w, b);
      SkipWhitespaceStep(a, w, b);
    } else {
      SplitAtWhitespace(a[FirstWhitespace(a)..], w, b);
      TokenStep(a, w, b);
    }
  }

  /** The inductive step of SplitAtWhitespace when `a` starts with whitespace. */
  lemma SkipWhitespaceStep(a: string, w: char, b: string)
    requires |a| > 0 && IsWhitespace(a[0])
    requires Split(a[1..] + [w] + b) == Split(a[1..]) + Split(b)
    ensures Split(a + [w] + b) == Split(a) + Split(b)
  {
    var a' := a[1..];
    assert a + [w] + b == [a[0]] + (a' + [w] + b);
    SplitLeadingWhitespace(a[0], a' + [w] + b);
    assert a == [a[0]] + a';
    SplitLeadingWhitespace(a[0], a');
  }

  lemma Regroup(a: string, j: nat, w: char, b: string)
    requires j <= |a|
    ensures a == a[..j] + a[j..]
    ensures a + [w] + b == a[..j] + (a[j..] + [w] + b)
  {
    assert a == a[..j] + a[j..];
  }

  /** A string that does not start with whitespace begins with a token that
      runs up to its first whitespace character. */
  lemma LeadingToken(a: string, w: char, b: string)
    requires IsWhitespace(w)
    requires |a| > 0 && !IsWhitespace(a[0])
    ensures IsToken(a[..FirstWhitespace(a)])
    ensures |a[FirstWhitespace(a)..]| > 0 ==> IsWhitespace(a[FirstWhitespace(a)..][0])
    ensures IsWhitespace((a[FirstWhitespace(a)..] + [w] + b)[0])
  {
    var j := FirstWhitespace(a);
    FirstWhitespaceIsFirst(a);
    if j < |a| {
      assert a[j..][0] == a[j];
      assert (a[j..] + [w] + b)[0] == a[j];
    } else {
      assert (a[j..] + [w] + b)[0] == w;
    }
  }

  /** The inductive step of SplitAtWhitespace when `a` starts with a token. */
  lemma TokenStep(a: string, w: char, b: string)
    requires IsWhitespace(w)
    requires |a| > 0 && !IsWhitespace(a[0])
    requires Split(a[FirstWhitespace(a)..] + [w] + b) == Split(a[FirstWhitespace(a)..]) + Split(b)
    ensures Split(a + [w] + b) == Split(a) + Split(b)
  {
    var j := FirstWhitespace(a);
    var t, a' := a[..j], a[j..];
    LeadingToken(a, w, b);
    Regroup(a, j, w, b);
    SplitTokenThen(t, a' + [w] + b);
    SplitTokenThen(t, a');
    assert [t] + (Split(a') + Split(b)) == [t] + Split(a') + Split(b);
  }

  /** A single token splits to itself. */
  lemma SplitToken(t: string)
    requires IsToken(t)
    ensures Split(t) == [t]
  {
    FirstWhitespaceOfToken(t, []);
    assert t + [] == t;
  }

  /** Splitting undoes joining with spaces, for well-formed tokens. */
  lemma {:induction false} SplitJoin(tokens: seq<string>)
    requires forall k :: 0 <= k < |tokens| ==> IsToken(tokens[k])
    ensures Split(Join(tokens)) == tokens
    decreases |tokens|
  {
    if |tokens| == 1 {
      SplitToken(tokens[0]);
    } else if |tokens| > 1 {
      SplitToken(tokens[0]);
      SplitJoin(tokens[1..]);
      SplitAtWhitespace(tokens[0], ' ', Join(tokens[1..]));
      assert tokens == [tokens[0]] + tokens[1..];
    }
  }

  /** Upper-casing the input first does not change its tokens, which is why
      `dup`, `Dup` and `DUP` are the same word. */
  lemma TokenizeCaseInsensitive(input: string)
    ensures Tokenize(Upper(input)) == Tokenize(input)
  {
    UpperIdempotent(input);
  }

  /** Upper-casing works character by character, so it distributes over
      concatenation and leaves a control character alone. */
  lemma UpperAround(a: string, c: char, b: string)
    requires IsControl(c)
    ensures Upper(a + [c] + b) == Upper(a) + [c] + Upper(b)
  {
    var s := a + [c] + b;
    var r := Upper(a) + [c] + Upper(b);
    forall i | 0 <= i < |s| ensures Upper(s)[i] == r[i] {
      if i < |a| {
        assert s[i] == a[i];
      } else if i > |a| {
        assert s[i] == b[i - |a| - 1];
      }
    }
  }

  /** Turning control characters into spaces distributes over
      concatenation, and the control character itself becomes a space. */
  lemma SpaceSeparatedAround(a: string, c: char, b: string)
    requires IsControl(c)
    ensures ToSpaceSeparated(a + [c] + b) == ToSpaceSeparated(a) + [' '] + ToSpaceSeparated(b)
  {
    var s := a + [c] + b;
    var r := ToSpaceSeparated(a) + [' '] + ToSpaceSeparated(b);
    forall i | 0 <= i < |s| ensures ToSpaceSeparated(s)[i] == r[i] {
      if i < |a| {
        assert s[i] == a[i];
      } else if i > |a| {
        assert s[i] == b[i - |a| - 1];
      }
    }
  }

  /** A control character separates tokens exactly as whitespace does: the
      tokens of the line are those before it followed by those after it. */
  lemma ControlSeparates(a: string, c: char, b: string)
    requires IsControl(c)
    ensures Tokenize(a + [c] + b) == Tokenize(a) + Tokenize(b)
  {
    UpperAround(a, c, b);
    SpaceSeparatedAround(Upper(a), c, Upper(b));
    SplitAtWhitespace(ToSpaceSeparated(Upper(a)), ' ', ToSpaceSeparated(Upper(b)));
  }

  /** Every token of an input line is a non-empty, whitespace-free,
      control-free upper-case string. */
  lemma TokenizeTokens(input: string)
    ensures forall k :: 0 <= k < |Tokenize(input)| ==> IsToken(Tokenize(input)[k])
    ensures forall k :: 0 <= k < |Tokenize(input)| ==> NoLower(Tokenize(input)[k]) && NoControl(Tokenize(input)[k])
  {
    var s := ToSpaceSeparated(Upper(input));
    assert NoLower(s) && NoControl(s);
    SplitSubstrings(s);
  }

  /** Every piece of a split is a token made of characters of the input. */
  lemma {:induction false} SplitSubstrings(s: string)
    ensures forall k :: 0 <= k < |Split(s)| ==> IsToken(Split(s)[k])
    ensures forall k, j :: 0 <= k < |Split(s)| && 0 <= j < |Split(s)[k]| ==> Split(s)[k][j] in s
    decreases |s|
  {
    if |s| > 0 {
      var i := FirstWhitespace(s);
      FirstWhitespaceIsFirst(s);
      if i == 0 {
        SplitSubstrings(s[1..]);
      } else {
        SplitSubstrings(s[i..]);
      }
    }
  }

  /** Leading whitespace removed: the result is a suffix of `s`, everything
      cut off is whitespace, and what is left does not start with it. */
  function TrimStart(s: string): (r: string)
    ensures |r| <= |s| && r == s[|s| - |r|..]
    ensures forall i :: 0 <= i < |s| - |r| ==> IsWhitespace(s[i])
    ensures |r| == 0 || !IsWhitespace(r[0])
    decreases |s|
  {
    if |s| > 0 && IsWhitespace(s[0]) then TrimStart(s[1..]) else s
  }

  /** Trailing whitespace removed: the result is a prefix of `s`, everything
      cut off is whitespace, and what is left does not end with it. */
  function TrimEnd(s: string): (r: string)
    ensures |r| <= |s| && r == s[..|r|]
    ensures forall i :: |r| <= i < |s| ==> IsWhitespace(s[i])
    ensures |r| == 0 || !IsWhitespace(r[|r| - 1])
    decreases |s|
  {
    if |s| > 0 && IsWhitespace(s[|s| - 1]) then TrimEnd(s[..|s| - 1]) else s
  }

  /** Whitespace removed from both ends. */
  function Trim(s: string): string {
    TrimEnd(TrimStart(s))
  }

  /** Trimming removes exactly one trailing space from a string that has no
      whitespace at either end before it. */
  lemma TrimSpaceAfter(s: string)
    requires |s| > 0 && !IsWhitespace(s[0]) && !IsWhitespace(s[|s| - 1])
    ensures Trim(s + " ") == s
  {
    var t := s + " ";
    assert t[0] == s[0];
    assert TrimStart(t) == t;
    assert IsWhitespace(t[|t| - 1]);
    assert t[..|t| - 1] == s;
    assert TrimEnd(t) == TrimEnd(s);
    assert TrimEnd(s) == s;
  }

  lemma {:induction false} JoinClean(tokens: seq<string>)
    requires forall k :: 0 <= k < |tokens| ==> NoLower(tokens[k]) && NoControl(tokens[k])
    ensures NoLower(Join(tokens)) && NoControl(Join(tokens))
    decreases |tokens|
  {
    if |tokens| > 1 {
      JoinClean(tokens[1..]);
      var rest := Join(tokens[1..]);
      var j := tokens[0] + " " + rest;
      forall i | 0 <= i < |j| ensures !IsLower(j[i]) && !IsControl(j[i]) {
        if i < |tokens[0]| {
          assert j[i] == tokens[0][i];
        } else if i > |tokens[0]| {
          assert j[i] == rest[i - |tokens[0]| - 1];
        }
      }
    }
  }

  /** Tokenizing undoes joining with spaces, for upper-case, control-free,
      whitespace-free non-empty tokens. */
  lemma TokenizeJoin(tokens: seq<string>)
    requires forall k :: 0 <= k < |tokens| ==> CleanToken(tokens[k])
    ensures Tokenize(Join(tokens)) == tokens
  {
    JoinClean(tokens);
    UpperOfNoLower(Join(tokens));
    SplitJoin(tokens);
  }

  /** A join of non-empty tokens starts with the first token's first
      character and ends with the last token's last character. */
  lemma {:induction false} JoinEnds(tokens: seq<string>)
    requires |tokens| > 0
    requires forall k :: 0 <= k < |tokens| ==> |tokens[k]| > 0
    ensures |Join(tokens)| > 0
    ensures Join(tokens)[0] == tokens[0][0]
    ensures Join(tokens)[|Join(tokens)| - 1] == tokens[|tokens| - 1][|tokens[|tokens| - 1]| - 1]
    decreases |tokens|
  {
    if |tokens| > 1 {
      JoinEnds(tokens[1..]);
    }
  }
}

=== FILE: words.dfy ===
/** The interpreter's data model: values, items, errors and the built-in vocabulary. */
module Words {

  /** A stack value; the interpreter stores 32-bit signed integers. */
  type Value = int

  const I32Min: int := -0x8000_0000
  const I32Max: int := 0x7fff_ffff

  predicate IsI32(v: int) {
    I32Min <= v <= I32Max
  }

  datatype ArithWord = Add | Sub | Mul | Div

  datatype StackWord = Dup | Drop | Swap | Over

  /** The two definition delimiters `:` and `;`. */
  datatype Symbol = Colon | SemiColon

  datatype Exec = Arith(op: ArithWord) | Stack(word: StackWord) | Literal(value: Value)

  datatype Item = ExecItem(exec: Exec) | SymbolItem(symbol: Symbol)

  /** The interpreter's error kinds. `Overflow` has no counterpart in the
      program's error enum: it stands for the panic that a checked 32-bit
      operation raises (see README). */
  datatype Error = DivisionByZero | StackUnderflow | UnknownWord | InvalidWord | Overflow

  /** The errors execution can raise; parsing raises only the other two. */
  predicate IsExecError(e: Error) {
    e == StackUnderflow || e == DivisionByZero || e == Overflow
  }

  /** Word name (upper case) to definition body. */
  type Vocab = map<string, seq<Item>>

  function Lit(v: Value): Item {
    ExecItem(Literal(v))
  }

  /** The built-in words every new interpreter starts with. */
  const InitialWordMap: Vocab := map[
    "DUP"  := [ExecItem(Stack(Dup))],
    "DROP" := [ExecItem(Stack(Drop))],
    "SWAP" := [ExecItem(Stack(Swap))],
    "OVER" := [ExecItem(Stack(Over))],
    "+"    := [ExecItem(Arith(Add))],
    "-"    := [ExecItem(Arith(Sub))],
    "*"    := [ExecItem(Arith(Mul))],
    "/"    := [ExecItem(Arith(Div))],
    ":"    := [SymbolItem(Colon)],
    ";"    := [SymbolItem(SemiColon)]
  ]

  /** Every literal in the sequence is a 32-bit value. */
  predicate ItemsI32(items: seq<Item>) {
    forall i :: 0 <= i < |items| ==> items[i].ExecItem? && items[i].exec.Literal? ==> IsI32(items[i].exec.value)
  }

  predicate VocabI32(vocab: Vocab) {
    forall name :: name in vocab ==> ItemsI32(vocab[name])
  }

  predicate StackI32(stack: seq<Value>) {
    forall i :: 0 <= i < |stack| ==> IsI32(stack[i])
  }

  /** The literal items pushing `vs` in order. */
  function Lits(vs: seq<Value>): (r: seq<Item>)
    ensures |r| == |vs|
    ensures forall i :: 0 <= i < |vs| ==> r[i] == Lit(vs[i])
  {
    if |vs| == 0 then [] else [Lit(vs[0])] + Lits(vs[1..])
  }

  lemma InitialWordMapI32()
    ensures VocabI32(InitialWordMap)
  {
  }
}

=== FILE: wrappers.dfy ===
/** Failure-compatible Option and Result types used throughout the model. */
module Wrappers {

  datatype Option<+T> = None | Some(value: T)

  /** The outcome of a fallible step: a value, or the error that stopped it. */
  datatype Result<+T, +E> = Ok(value: T) | Err(error: E) {

    predicate IsFailure() {
      Err?
    }

    function PropagateFailure<U>(): Result<U, E>
      requires Err?
    {
      Err(error)
    }

    function Extract(): T
      requires Ok?
    {
      value
    }
  }
}
